=== FILE: README.md ===
# Downloads organizer: a Dafny model

This project models the organizing core of `organizer_downloads_files.py`, a
script that tidies a downloads folder. It classifies every file by its
extension into a category folder such as `Images` or `Documents`. It
optionally nests that folder under the year and month of the file's last
modification. It moves the file there, renaming it `name (1).ext`,
`name (2).ext`, … when the name is taken. Afterwards it can delete the
directories that have become empty. A statistics record counts what
happened.

The file system is an immutable tree (`FsTree`): a directory is a listing of
named entries in listing order, and a file carries the year and month of its
modification time. Paths are sequences of components. Name lookup is
first-match, and pathlib's joining rules are kept: joining `""` or `"."`
adds no component.

The modules follow the script:

- `Text`: extension normalisation, `str()` of a year, pathlib's
  `suffix`/`stem`.
- `Counters`: the statistics record.
- `Rules`: building the ordered rule list from the defaults and the custom
  rules, and first-match resolution.
- `Mover`: `ensure_dir`, the free-name search and `safe_move`.
- `Planner`: the three layouts and the method dispatch.
- `Scanner`: the deep scan and the watcher's handler.
- `Reaper`: the bottom-up removal of empty directories.

Every step that can raise in the script yields an explicit outcome. A
`Some` destination means the move happened. `None` means the step raised,
and the caller logs it and carries on. Failures of `mkdir`, of the move and
of `rmdir` are oracles passed in as parameters.

A custom category named `""` or `"."` plans the flat-layout destination as
the target folder itself (`Planner.PlanDest`). A file already sitting there
then collides with its own name and is renamed to `name (1).ext` in place
(`Mover.SelfCollision`). The script does the same.

The walk's category-folder skip never takes effect
(`Scanner.SkipNeverTakesEffect`). It applies only to non-recursive scans,
and those stop after the target, which it never skips. So a recursive scan
plans again a file already sorted into its folder. The file collides with
itself and is renamed `name (1).ext` in place. The model keeps this
behaviour.

## Model

| member | source | states |
|---|---|---|
| Counters.MakeStats | organizer_downloads_files.py:89-96 | a fresh record is balanced and no record has a smaller counter than it |
| Text.NormalizeExt | organizer_downloads_files.py:147-148 | the result is the input with its maximal run of leading dots removed and lower-cased; it never starts with a dot and holds no upper-case letter |
| Text.NormalizeIdempotent | organizer_downloads_files.py:147-148 | normalising an already normalised extension changes nothing |
| Text.Decimal | organizer_downloads_files.py:217 | the year folder is a non-empty string of decimal digits with no leading zero, except for year 0 itself |
| Text.DecimalRoundTrip | organizer_downloads_files.py:217 | the decimal rendering of a year reads back as the same number |
| Text.DecimalInjective | organizer_downloads_files.py:217 | different years give different folder names |
| Text.StemSuffixSplit | organizer_downloads_files.py:173-174 | stem followed by suffix gives back the whole file name |
| Rules.BuildRules | organizer_downloads_files.py:193-201 | custom rows come first in their own order, with normalised extensions; then come the default rows not overridden, in default order; categories are distinct and are exactly the custom keys plus the default categories |
| Rules.CustomShadowsDefaults | organizer_downloads_files.py:196-200 | an extension listed in a custom rule resolves to a custom category, that rule's or an earlier one's, even when a default rule lists it too |
| Rules.OverrideReplaces | organizer_downloads_files.py:196-200 | a category given in the custom rules has only the custom extension list, normalised; the default list for it is gone |
| Rules.NoCustomRules | organizer_downloads_files.py:61-70 | without custom rules the rule list is the default table, normalised, in its order |
| Rules.Resolve | organizer_downloads_files.py:204-208 | the folder is always either the fallback "Others" or one of the rule categories |
| Rules.ResolveSpec | organizer_downloads_files.py:204-208 | the folder is the category of the first rule listing the extension, and "Others" when no rule lists it |
| Rules.JpgIsImage | organizer_downloads_files.py:61-62 | with the default rules ".jpg" resolves to "Images" |
| Mover.EnsureDir | organizer_downloads_files.py:155-158 | an existing path is left alone and not counted; a missing one is created with all its parents unless a file lies on the way or mkdir fails, and then it is empty and counted once; no file is touched, nothing else that existed changes, and the only new paths are the missing prefixes of the path |
| Mover.CandidatesSize | organizer_downloads_files.py:177 | the first n rename candidates are n distinct names |
| Mover.FreeIndex | organizer_downloads_files.py:175-183 | the rename loop ends: the index it stops at names a free candidate, all smaller indices are taken, and it is at most one more than the number of names present |
| Mover.ChooseName | organizer_downloads_files.py:166-183 | the chosen name is free; it is the file's own name when that is free, else the first free numbered candidate |
| Mover.SafeMove | organizer_downloads_files.py:161-187 | counters never decrease; a failed ensure_dir raises before anything is counted; otherwise the file is scanned once and ends as exactly one of a move or an error, so a balanced record stays balanced; a step that raises leaves every file where it was, and no step creates a file except at the destination it reports |
| Mover.SafeMovePlacement | organizer_downloads_files.py:161-183 | a successful move puts the file under its chosen free name in the destination directory, with the same content; the source is gone; every existing path apart from both the source and the final destination is unchanged |
| Mover.SafeMoveKeepsOtherFiles | organizer_downloads_files.py:161-183 | a successful move disturbs no file but the one it moves; after a name collision the file that held the name is still there beside the renamed one |
| Mover.SafeMoveSucceeds | organizer_downloads_files.py:161-183 | a present file moves whenever the destination directory can be made and the move does not fail |
| Mover.SelfCollision | organizer_downloads_files.py:166-177 | a file whose destination directory is its own directory is renamed in place to the first free numbered candidate |
| FsTree.MkdirAllSpec | organizer_downloads_files.py:157 | mkdir with parents succeeds exactly when no prefix of the path is a file; then the path is a directory, every other existing path that is not a prefix of it is unchanged, and every path that is new is a prefix of it |
| FsTree.FileNames | organizer_downloads_files.py:252-262 | the files a walk step yields: every file one level down is among them, each is a name present in the directory, and none are yielded for a path that is not a directory; when the directory's names are unique, every yielded name is a regular file there and no name appears twice |
| FsTree.RenameNoNewFiles | organizer_downloads_files.py:168 | after a rename every file other than the one at the destination was there before, with the same content |
| FsTree.RenameSpec | organizer_downloads_files.py:168 | a move to a free name puts the file there, removes the source and leaves every path unrelated to both alone |
| Planner.LayoutOf | organizer_downloads_files.py:265-270 | "type_date" and "date_type" select the dated layouts; every other method string selects the flat layout |
| Planner.MonthAbbrev | organizer_downloads_files.py:151-152 | the month folder is the month's own three-letter name from the table Jan … Dec, which no other month gets |
| Planner.CategoryOf | organizer_downloads_files.py:214-215 | a file's category folder is that of the first rule listing its normalised suffix, and "Others" when no rule lists it |
| Planner.PlanDest | organizer_downloads_files.py:214-238 | type_date plans target/category/year/month, date_type plans target/year/month/category, and the flat layout plans target/category; a category of "" or "." adds no component, so the destination equals the target only in the flat layout with such a category |
| Planner.Destination | organizer_downloads_files.py:214-238 | the dated layouts read the file's year and month and fail when the file has vanished; the flat layout never fails |
| Planner.Organize | organizer_downloads_files.py:214-238 | a vanished file in a dated layout raises with nothing changed; a successful step counts one scanned file and one move, and the file's content is found at its destination and no longer at its source; a step that raises leaves every file where it was, and no step creates a file except at the destination it reports |
| Planner.OrganizeKeepsOtherFiles | organizer_downloads_files.py:214-238 | a successful organize step leaves every other file where it was, with the same content |
| Planner.OrganizePlacement | organizer_downloads_files.py:214-238 | a successful step places the file in its planned directory under the name the rename rule chooses |
| Planner.MarchJpgExample | organizer_downloads_files.py:214-238 | with the default rules, "photo.jpg" modified in March 2023 goes to Images/2023/Mar, 2023/Mar/Images or Images |
| Scanner.ProcessFiles | organizer_downloads_files.py:262-272 | organizing one listing never lowers a counter and leaves folders_deleted unchanged, scans at most one file per name, and leaves every scanned file moved or counted as an error |
| Scanner.ProcessFilesSplit | organizer_downloads_files.py:262-272 | a listing processed in two parts gives the same result as processing it whole, so a failing file never stops the files after it |
| Scanner.Walk | organizer_downloads_files.py:252-274 | a walk never lowers a counter, leaves folders_deleted unchanged and leaves every scanned file moved or counted as an error |
| Scanner.RecursiveScanVisitsAll | organizer_downloads_files.py:244-277 | a recursive scan of a directory organizes the files of the target and then of every later directory, none passed over, and then reaps the target exactly when delete_empty is set |
| Scanner.RecursiveVisitsAll | organizer_downloads_files.py:252-272 | a recursive walk equals organizing the files of every visited directory in order, with none passed over, category folders included |
| Scanner.DeepScan | organizer_downloads_files.py:244-277 | a missing target changes nothing; counters never decrease; every scanned file is moved or an error; without delete_empty folders_deleted is unchanged |
| Scanner.NonRecursiveScansTopLevel | organizer_downloads_files.py:252-277 | a non-recursive scan organizes exactly the files directly inside the target, whatever directories the walk would visit later, and then reaps when asked; it scans at most that many files |
| Scanner.OnCreated | organizer_downloads_files.py:307-324 | a directory event changes nothing; a file event scans at most one file; the cleanup over the target runs exactly when delete_empty is set and the organize step did not raise; otherwise the result is the organize step's tree and counters |
| Reaper.Reap | organizer_downloads_files.py:280-291 | the root is never removed, no file is lost, and the count equals the number of directories that disappeared |
| Reaper.ReapAllSurvivors | organizer_downloads_files.py:280-291 | the entries kept are exactly the non-removable ones, in listing order; a removable directory is one whose removal does not fail and whose contents are all removable |
| Reaper.ReapEmpties | organizer_downloads_files.py:280-291 | a directory ends up empty exactly when everything inside it is removable |
| Reaper.FileBlocksRemoval | organizer_downloads_files.py:285 | a directory that contains a file anywhere below it is never removed |
| Reaper.NestedEmptyVanish | organizer_downloads_files.py:280-291 | nested directories with no file anywhere all disappear in one pass when no removal fails, and the count is their number |
| Reaper.ReapAt | organizer_downloads_files.py:280-291 | only folders_deleted changes, by exactly the number of directories that disappear from the whole tree; the file count of the tree is unchanged, the walked directory stays, and every path outside it is unchanged |

## Left out

- The GUI, the command line, `print_summary`, `load_config`/`save_config` and logging: apart from the extra reaper call below, these do I/O and presentation only.
- The GUI's "run now" path (organizer_downloads_files.py:406) and the command line's `--run` path (organizer_downloads_files.py:472-473) both call the reaper once more after the scan, whatever `delete_empty` says. Those callers are not modelled; the second call is `Reaper.ReapAt` applied again.
- The watchdog observer, its thread and the 0.8-second sleep: the handler is modelled as a function of one event.
- The conversion of a timestamp into a local year and month: each file carries its year and month directly.
- `Planner.MonthAbbrev` gives the English `%b` names of the C locale; other locales are not modelled.
- `Text.NormalizeExt` lower-cases ASCII letters only; Python's `str.lower` also folds other Unicode letters.
- `Mover.SafeMove` treats a failed `mkdir` as leaving the tree unchanged; a real `mkdir -p` can fail after creating some parents.
- `shutil.move` across devices, symlinks and concurrent changes to the folder are not modelled: a move is an atomic rename of one file.
- `Planner.Destination` treats a source that is a directory like a vanished file in the dated layouts. The script only ever hands files to the organize step.
- Category names containing `/`, `..` or an absolute path would make pathlib leave the target; each category is one path component here.
- `Scanner`'s walk does not assume that a listing's names are unique; the tree allows repeated names, and lookup takes the first. Only `FsTree.FileNames` states the unique-names case.
- `os.walk` lists subdirectories before yielding a directory. In the model, the directories visited after the target are an input (`later` in `Scanner.DeepScan`), and each one's files are listed from the tree as it stands when it is visited.
- Idempotence of a whole scan (a second run moves nothing) is not proved. It does not hold for the flat layout with a category that adds no path component: such a file is renamed in place on every run. It does not hold for a recursive scan either, because the walk re-plans files already sorted into their folders (see above). For a non-recursive scan in a dated layout, a second run could still move files: those the first run left at the top because their move failed, and files arriving between the runs. Stating that property would need a model of the whole second run, which is not attempted.
- Only the `.jpg` classification is proved for the default table (`Rules.JpgIsImage`). Disjointness of all the default extension lists is not stated.
- A `custom_rules` value of `None` is treated like an empty mapping; the deep scan does exactly that, and the watcher receives rules already built.

=== FILE: fstree.dfy ===
/**
 * The abstract directory tree the organizer works on. A directory is the
 * sequence of its entries in listing order; a name is looked up by its first
 * entry. A file carries the local calendar year and month of its modification
 * time, which is all the organizer reads from it.
 */
module FsTree {

  import opened Opt

  type Month = m: int | 1 <= m <= 12 witness 1

  /** A path as its sequence of components, from the tree's root. */
  type Path = seq<string>

  datatype Node = File(year: nat, month: Month) | Dir(entries: seq<Entry>)

  datatype Entry = Entry(name: string, node: Node)

  /** Index of the first entry called `name`. */
  function Find(es: seq<Entry>, name: string): (r: Option<nat>)
    ensures r.Some? ==> r.value < |es| && es[r.value].name == name
    ensures r.Some? ==> forall j :: 0 <= j < r.value ==> es[j].name != name
    ensures r.None? ==> forall j :: 0 <= j < |es| ==> es[j].name != name
  {
    if es == [] then None
    else if es[0].name == name then Some(0)
    else match Find(es[1..], name)
      case None => None
      case Some(i) => Some(i + 1)
  }

  /** The node an entry name refers to in a listing. */
  function ChildOf(es: seq<Entry>, name: string): Option<Node>
  {
    match Find(es, name)
    case None => None
    case Some(i) => Some(es[i].node)
  }

  function Names(es: seq<Entry>): set<string>
  {
    set e | e in es :: e.name
  }

  lemma FindNames(es: seq<Entry>, name: string)
    ensures Find(es, name).Some? <==> name in Names(es)
  {
    if name in Names(es) {
      var e :| e in es && e.name == name;
    }
  }

  function Lookup(n: Node, p: Path): Option<Node>
  {
    if p == [] then Some(n)
    else match n
      case File(_, _) => None
      case Dir(es) =>
        match Find(es, p[0])
        case None => None
        case Some(i) => Lookup(es[i].node, p[1..])
  }

  /** pathlib's `exists()`. */
  predicate Exists(n: Node, p: Path)
  {
    Lookup(n, p).Some?
  }

  predicate IsDirAt(n: Node, p: Path)
  {
    Lookup(n, p).Some? && Lookup(n, p).value.Dir?
  }

  predicate IsFileAt(n: Node, p: Path)
  {
    Lookup(n, p).Some? && Lookup(n, p).value.File?
  }

  /** The names present in the directory at `p`; nothing is present under a file or a missing path. */
  function ChildNames(n: Node, p: Path): set<string>
  {
    if IsDirAt(n, p) then Names(Lookup(n, p).value.entries) else {}
  }

  /** No two entries of a listing share a name, as in a directory on disk. */
  predicate UniqueNames(es: seq<Entry>)
  {
    forall i, j :: 0 <= i < j < |es| ==> es[i].name != es[j].name
  }

  predicate NoDuplicates(s: seq<string>)
  {
    forall i, j :: 0 <= i < j < |s| ==> s[i] != s[j]
  }

  /**
   * The regular files of a listing, in listing order (the `files` of an
   * `os.walk` step): every file entry's name and nothing else, each name once
   * when the listing has unique names.
   */
  function FileEntries(es: seq<Entry>): (r: seq<string>)
    ensures |r| <= |es|
    ensures forall e :: e in es && e.node.File? ==> e.name in r
    ensures forall nm :: nm in r ==> exists e :: e in es && e.node.File? && e.name == nm
    ensures UniqueNames(es) ==> NoDuplicates(r)
  {
    if es == [] then []
    else
      var rest := FileEntries(es[1..]);
      assert forall e :: e in es[1..] ==> e in es;
      if es[0].node.File? then
        var r := [es[0].name] + rest;
        assert UniqueNames(es) ==> NoDuplicates(r) by {
          if UniqueNames(es) {
            assert UniqueNames(es[1..]) by {
              forall i, j | 0 <= i < j < |es[1..]| ensures es[1..][i].name != es[1..][j].name {
                assert es[1..][i] == es[i + 1] && es[1..][j] == es[j + 1];
              }
            }
            assert es[0].name !in rest by {
              forall e | e in es[1..] ensures e.name != es[0].name {
                var k :| 0 <= k < |es[1..]| && es[1..][k] == e;
                assert es[k + 1] == e;
              }
            }
            forall i, j | 0 <= i < j < |r| ensures r[i] != r[j] {
              if i == 0 {
                assert r[j] in rest;
              } else {
                assert r[i] == rest[i - 1] && r[j] == rest[j - 1];
              }
            }
          }
        }
        r
      else
        assert UniqueNames(es) ==> UniqueNames(es[1..]) by {
          if UniqueNames(es) {
            forall i, j | 0 <= i < j < |es[1..]| ensures es[1..][i].name != es[1..][j].name {
              assert es[1..][i] == es[i + 1] && es[1..][j] == es[j + 1];
            }
          }
        }
        rest
  }

  /** The files directly inside the directory at `p`, in listing order; none when `p` is not a directory. */
  function FileNames(n: Node, p: Path): (r: seq<string>)
    ensures !IsDirAt(n, p) ==> r == []
    ensures forall nm :: IsFileAt(n, p + [nm]) ==> nm in r
    ensures forall nm :: nm in r ==> nm in ChildNames(n, p)
    ensures IsDirAt(n, p) && UniqueNames(Lookup(n, p).value.entries) ==> NoDuplicates(r)
    ensures IsDirAt(n, p) && UniqueNames(Lookup(n, p).value.entries) ==> forall nm :: nm in r ==> IsFileAt(n, p + [nm])
  {
    assert IsDirAt(n, p) && UniqueNames(Lookup(n, p).value.entries) ==>
      forall nm :: nm in FileEntries(Lookup(n, p).value.entries) ==> IsFileAt(n, p + [nm]) by {
      if IsDirAt(n, p) && UniqueNames(Lookup(n, p).value.entries) {
        forall nm | nm in FileEntries(Lookup(n, p).value.entries) ensures IsFileAt(n, p + [nm]) {
          ListedIsFile(n, p, nm);
        }
      }
    }
    assert forall nm :: IsFileAt(n, p + [nm]) ==> IsDirAt(n, p) && nm in FileEntries(Lookup(n, p).value.entries) by {
      forall nm | IsFileAt(n, p + [nm])
        ensures IsDirAt(n, p) && nm in FileEntries(Lookup(n, p).value.entries)
      {
        FileAtListed(n, p, nm);
      }
    }
    if IsDirAt(n, p) then FileEntries(Lookup(n, p).value.entries) else []
  }

  /** pathlib's `p / name` for a single name: the empty name and "." add no component. */
  function JoinName(p: Path, name: string): (r: Path)
    ensures name != "" && name != "." ==> r == p + [name]
    ensures name == "" || name == "." ==> r == p
  {
    if name == "" || name == "." then p else p + [name]
  }

  /** Places `x` at `p`; fails unless the parent of `p` is a directory. */
  function Put(n: Node, p: Path, x: Node): Option<Node>
  {
    if p == [] then Some(x)
    else match n
      case File(_, _) => None
      case Dir(es) =>
        match Find(es, p[0])
        case Some(i) =>
          (match Put(es[i].node, p[1..], x)
           case None => None
           case Some(c) => Some(Dir(es[i := Entry(p[0], c)])))
        case None =>
          if |p| == 1 then Some(Dir(es + [Entry(p[0], x)])) else None
  }

  /** The listing without any entry called `name`. */
  function Without(es: seq<Entry>, name: string): (r: seq<Entry>)
    ensures forall e :: e in r <==> e in es && e.name != name
  {
    if es == [] then []
    else (if es[0].name == name then [] else [es[0]]) + Without(es[1..], name)
  }

  /** Unlinks whatever is at `p`; a missing path leaves the tree as it is. */
  function Remove(n: Node, p: Path): Node
  {
    if p == [] then n
    else match n
      case File(_, _) => n
      case Dir(es) =>
        if |p| == 1 then Dir(Without(es, p[0]))
        else match Find(es, p[0])
          case None => n
          case Some(i) => Dir(es[i := Entry(p[0], Remove(es[i].node, p[1..]))])
  }

  /** A chain of fresh, empty, nested directories along `q`. */
  function Chain(q: Path): (r: Node)
    ensures r.Dir?
  {
    if q == [] then Dir([]) else Dir([Entry(q[0], Chain(q[1..]))])
  }

  /** `mkdir(parents=True, exist_ok=True)`: creates every missing level of `p`; fails when a file is in the way. */
  function MkdirAll(n: Node, p: Path): Option<Node>
  {
    match n
    case File(_, _) => None
    case Dir(es) =>
      if p == [] then Some(n)
      else match Find(es, p[0])
        case Some(i) =>
          (match MkdirAll(es[i].node, p[1..])
           case None => None
           case Some(c) => Some(Dir(es[i := Entry(p[0], c)])))
        case None => Some(Dir(es + [Entry(p[0], Chain(p[1..]))]))
  }

  /** An atomic rename of the file at `src` to `dst`; fails unless `src` is a file and `dst`'s parent a directory. */
  function Rename(n: Node, src: Path, dst: Path): Option<Node>
  {
    if src == [] || dst == [] || !IsFileAt(n, src) then None
    else Put(Remove(n, src), dst, Lookup(n, src).value)
  }

  /** Neither path lies at or below the other. */
  predicate Apart(p: Path, q: Path)
  {
    !(p <= q) && !(q <= p)
  }

  // ---------------------------------------------------------------------------
  // Listing lemmas

  /** `i` is the index of the first entry called `name`. */
  predicate FirstAt(es: seq<Entry>, name: string, i: nat)
  {
    i < |es| && es[i].name == name && forall j :: 0 <= j < i ==> es[j].name != name
  }

  lemma FindIsFirst(es: seq<Entry>, name: string, i: nat)
    requires FirstAt(es, name, i)
    ensures Find(es, name) == Some(i)
  {
  }

  lemma ChildOfUpdated(es: seq<Entry>, name: string, y: Node, other: string)
    requires Find(es, name).Some?
    ensures ChildOf(es[Find(es, name).value := Entry(name, y)], name) == Some(y)
    ensures other != name ==> ChildOf(es[Find(es, name).value := Entry(name, y)], other) == ChildOf(es, other)
  {
    var i := Find(es, name).value;
    var es' := es[i := Entry(name, y)];
    FindIsFirst(es', name, i);
    if other != name {
      match Find(es, other)
      case Some(k) =>
        FindIsFirst(es', other, k);
      case None =>
    }
  }

  lemma ChildOfAppended(es: seq<Entry>, name: string, y: Node, other: string)
    requires Find(es, name).None?
    ensures ChildOf(es + [Entry(name, y)], name) == Some(y)
    ensures other != name ==> ChildOf(es + [Entry(name, y)], other) == ChildOf(es, other)
  {
    var es' := es + [Entry(name, y)];
    FindIsFirst(es', name, |es|);
    if other != name {
      match Find(es, other)
      case Some(k) =>
        FindIsFirst(es', other, k);
      case None =>
    }
  }

  lemma FindConcat(a: seq<Entry>, b: seq<Entry>, name: string)
    ensures ChildOf(a + b, name) == if Find(a, name).Some? then ChildOf(a, name) else ChildOf(b, name)
  {
    match Find(a, name)
    case Some(i) =>
      FindIsFirst(a + b, name, i);
    case None =>
      match Find(b, name)
      case Some(k) =>
        FindIsFirst(a + b, name, |a| + k);
      case None =>
  }

  lemma {:induction false} ChildOfWithout(es: seq<Entry>, name: string, other: string)
    ensures ChildOf(Without(es, name), name) == None
    ensures other != name ==> ChildOf(Without(es, name), other) == ChildOf(es, other)
  {
    if es != [] {
      ChildOfWithout(es[1..], name, other);
      var head := if es[0].name == name then [] else [es[0]];
      assert Without(es, name) == head + Without(es[1..], name);
      FindConcat(head, Without(es[1..], name), name);
      FindConcat(head, Without(es[1..], name), other);
      FindConcat([es[0]], es[1..], other);
      assert [es[0]] + es[1..] == es;
    }
  }

  // ---------------------------------------------------------------------------
  // Path lemmas

  lemma LookupStep(n: Node, p: Path)
    requires p != [] && n.Dir?
    ensures Lookup(n, p) == match ChildOf(n.entries, p[0]) case None => None case Some(c) => Lookup(c, p[1..])
  {
  }

  /** Everything on the way to an existing path exists, and is a directory. */
  lemma {:induction false} PrefixExists(n: Node, p: Path, q: Path)
    requires Exists(n, q) && p <= q
    ensures Exists(n, p)
    ensures p < q ==> IsDirAt(n, p)
  {
    if p != [] {
      var i := Find(n.entries, p[0]).value;
      PrefixExists(n.entries[i].node, p[1..], q[1..]);
    }
  }

  /** A file one level below `d` is listed among the files of `d`. */
  lemma FileAtListed(n: Node, d: Path, name: string)
    requires IsFileAt(n, d + [name])
    ensures IsDirAt(n, d) && name in FileEntries(Lookup(n, d).value.entries)
  {
    PrefixExists(n, d, d + [name]);
    LookupSplit(n, d, [name]);
    var es := Lookup(n, d).value.entries;
    var i := Find(es, name).value;
    assert es[i] in es;
  }

  /** In a listing with unique names, a listed file is what its path looks up. */
  lemma ListedIsFile(n: Node, d: Path, name: string)
    requires IsDirAt(n, d) && UniqueNames(Lookup(n, d).value.entries)
    requires name in FileEntries(Lookup(n, d).value.entries)
    ensures IsFileAt(n, d + [name])
  {
    var es := Lookup(n, d).value.entries;
    var e :| e in es && e.node.File? && e.name == name;
    var i :| 0 <= i < |es| && es[i] == e;
    FindIsFirst(es, name, i);
    LookupSplit(n, d, [name]);
  }

  /** A name present under an existing directory is one of its child names. */
  lemma ExistsChild(n: Node, d: Path, name: string)
    requires Exists(n, d + [name])
    ensures IsDirAt(n, d) && name in ChildNames(n, d)
  {
    PrefixExists(n, d, d + [name]);
    LookupSplit(n, d, [name]);
    FindNames(Lookup(n, d).value.entries, name);
  }

  lemma {:induction false} LookupSplit(n: Node, d: Path, q: Path)
    requires Exists(n, d)
    ensures Lookup(n, d + q) == Lookup(Lookup(n, d).value, q)
  {
    if d == [] {
      assert d + q == q;
    } else {
      var i := Find(n.entries, d[0]).value;
      assert (d + q)[1..] == d[1..] + q;
      LookupSplit(n.entries[i].node, d[1..], q);
    }
  }

  lemma {:induction false} PutPlaces(n: Node, p: Path, x: Node)
    requires Put(n, p, x).Some?
    ensures Lookup(Put(n, p, x).value, p) == Some(x)
  {
    if p != [] {
      var es := n.entries;
      match Find(es, p[0])
      case Some(i) =>
        PutPlaces(es[i].node, p[1..], x);
        ChildOfUpdated(es, p[0], Put(es[i].node, p[1..], x).value, p[0]);
      case None =>
        ChildOfAppended(es, p[0], x, p[0]);
    }
  }

  lemma {:induction false} PutApart(n: Node, p: Path, x: Node, q: Path)
    requires Put(n, p, x).Some? && Apart(p, q)
    ensures Lookup(Put(n, p, x).value, q) == Lookup(n, q)
  {
    var m := Put(n, p, x).value;
    var es := n.entries;
    match Find(es, p[0])
    case Some(i) =>
      var c := Put(es[i].node, p[1..], x).value;
      ChildOfUpdated(es, p[0], c, q[0]);
      ChildOfUpdated(es, p[0], c, p[0]);
      LookupStep(n, q);
      LookupStep(m, q);
      if q[0] == p[0] {
        PutApart(es[i].node, p[1..], x, q[1..]);
      }
    case None =>
      ChildOfAppended(es, p[0], x, q[0]);
      LookupStep(n, q);
      LookupStep(m, q);
  }

  lemma {:induction false} PutNeedsParent(n: Node, p: Path, x: Node, q: Path)
    requires Put(n, p, x).Some? && q < p
    ensures IsDirAt(n, q)
  {
    if q != [] {
      var i := Find(n.entries, p[0]).value;
      PutNeedsParent(n.entries[i].node, p[1..], x, q[1..]);
    }
  }

  lemma {:induction false} PutSucceeds(n: Node, p: Path, x: Node)
    requires p != [] && IsDirAt(n, p[..|p| - 1])
    ensures Put(n, p, x).Some?
  {
    if |p| > 1 {
      var i := Find(n.entries, p[0]).value;
      assert p[1..][..|p| - 2] == p[..|p| - 1][1..];
      PutSucceeds(n.entries[i].node, p[1..], x);
    }
  }

  lemma {:induction false} RemoveGone(n: Node, p: Path)
    requires p != []
    ensures Lookup(Remove(n, p), p) == None
  {
    if n.Dir? {
      var es := n.entries;
      if |p| == 1 {
        ChildOfWithout(es, p[0], p[0]);
      } else {
        match Find(es, p[0])
        case None =>
        case Some(i) =>
          RemoveGone(es[i].node, p[1..]);
          ChildOfUpdated(es, p[0], Remove(es[i].node, p[1..]), p[0]);
      }
    }
  }

  lemma {:induction false} RemoveApart(n: Node, p: Path, q: Path)
    requires Apart(p, q)
    ensures Lookup(Remove(n, p), q) == Lookup(n, q)
  {
    if n.Dir? {
      var es := n.entries;
      var m := Remove(n, p);
      if |p| == 1 {
        ChildOfWithout(es, p[0], q[0]);
        LookupStep(n, q);
        LookupStep(m, q);
      } else {
        match Find(es, p[0])
        case None =>
        case Some(i) =>
          ChildOfUpdated(es, p[0], Remove(es[i].node, p[1..]), q[0]);
          ChildOfUpdated(es, p[0], Remove(es[i].node, p[1..]), p[0]);
          LookupStep(n, q);
          LookupStep(m, q);
          if q[0] == p[0] {
            RemoveApart(es[i].node, p[1..], q[1..]);
          }
      }
    }
  }

  /** Unlinking never turns a directory that does not lie at or below the unlinked path into something else. */
  lemma {:induction false} RemoveKeepsDir(n: Node, p: Path, q: Path)
    requires IsDirAt(n, q) && !(p <= q)
    ensures IsDirAt(Remove(n, p), q)
  {
    if q == [] {
    } else if p != [] && q[0] != p[0] {
      RemoveApart(n, p, q);
    } else if p != [] {
      var es := n.entries;
      var i := Find(es, p[0]).value;
      assert |p| > 1;
      ChildOfUpdated(es, p[0], Remove(es[i].node, p[1..]), p[0]);
      RemoveKeepsDir(es[i].node, p[1..], q[1..]);
    }
  }

  lemma {:induction false} ChainShape(q: Path)
    ensures IsDirAt(Chain(q), q)
  {
    if q != [] {
      ChainShape(q[1..]);
      assert Find([Entry(q[0], Chain(q[1..]))], q[0]) == Some(0);
    }
  }

  /**
   * `mkdir(parents=True)` succeeds exactly when no file stands on the way to
   * (or at) the path; it leaves a directory there, keeps every existing path
   * that is not above it as it was, and adds no path but the missing prefixes
   * of the path.
   */
  lemma MkdirAllSpec(n: Node, p: Path, q: Path)
    ensures MkdirAll(n, p).Some? <==> forall k :: 0 <= k <= |p| ==> !IsFileAt(n, p[..k])
    ensures MkdirAll(n, p).Some? ==> IsDirAt(MkdirAll(n, p).value, p)
    ensures MkdirAll(n, p).Some? && Exists(n, q) && !(q < p) ==> Lookup(MkdirAll(n, p).value, q) == Lookup(n, q)
    ensures MkdirAll(n, p).Some? && Exists(MkdirAll(n, p).value, q) ==> Exists(n, q) || q <= p
  {
    MkdirAllShape(n, p, q);
    if MkdirAll(n, p).Some? && Exists(MkdirAll(n, p).value, q) {
      MkdirAllNoNewPaths(n, p, q);
    }
  }

  /** When `mkdir(parents=True)` succeeds, and what it leaves at and beside the path. */
  lemma {:induction false} MkdirAllShape(n: Node, p: Path, q: Path)
    ensures MkdirAll(n, p).Some? <==> forall k :: 0 <= k <= |p| ==> !IsFileAt(n, p[..k])
    ensures MkdirAll(n, p).Some? ==> IsDirAt(MkdirAll(n, p).value, p)
    ensures MkdirAll(n, p).Some? && Exists(n, q) && !(q < p) ==> Lookup(MkdirAll(n, p).value, q) == Lookup(n, q)
  {
    assert p[..0] == [];
    match n
    case File(_, _) =>
    case Dir(es) =>
      if p != [] {
        var m := MkdirAll(n, p);
        match Find(es, p[0])
        case Some(i) =>
          var c := es[i].node;
          MkdirAllShape(c, p[1..], if q != [] then q[1..] else []);
          assert forall k :: 1 <= k <= |p| ==> Lookup(n, p[..k]) == Lookup(c, p[1..][..k - 1]) by {
            forall k | 1 <= k <= |p| ensures Lookup(n, p[..k]) == Lookup(c, p[1..][..k - 1]) {
              assert p[..k][1..] == p[1..][..k - 1];
            }
          }
          if (forall k :: 0 <= k <= |p| ==> !IsFileAt(n, p[..k])) {
            forall k | 0 <= k <= |p| - 1 ensures !IsFileAt(c, p[1..][..k]) {
              assert Lookup(n, p[..k + 1]) == Lookup(c, p[1..][..k]);
            }
          } else {
            var k :| 0 <= k <= |p| && IsFileAt(n, p[..k]);
            assert !IsFileAt(c, p[1..][..k - 1]) ==> k == 0;
          }
          if m.Some? {
            var c' := MkdirAll(c, p[1..]).value;
            ChildOfUpdated(es, p[0], c', p[0]);
            if q != [] {
              ChildOfUpdated(es, p[0], c', q[0]);
              LookupStep(n, q);
              LookupStep(m.value, q);
            }
          }
        case None =>
          ChildOfAppended(es, p[0], Chain(p[1..]), p[0]);
          ChainShape(p[1..]);
          forall k | 1 <= k <= |p| ensures !IsFileAt(n, p[..k]) {
            LookupStep(n, p[..k]);
          }
          if q != [] {
            ChildOfAppended(es, p[0], Chain(p[1..]), q[0]);
            LookupStep(n, q);
            LookupStep(m.value, q);
          }
      }
  }

  /**
   * A successful rename leaves the file at `dst`, nothing at `src`, and every
   * path apart from both as it was.
   */
  lemma RenameSpec(n: Node, src: Path, dst: Path, q: Path)
    requires Rename(n, src, dst).Some? && !Exists(n, dst)
    ensures Lookup(Rename(n, src, dst).value, dst) == Lookup(n, src)
    ensures Lookup(Rename(n, src, dst).value, src) == None
    ensures Apart(q, src) && Apart(q, dst) ==> Lookup(Rename(n, src, dst).value, q) == Lookup(n, q)
  {
    var f := Lookup(n, src).value;
    var r := Remove(n, src);
    var m := Put(r, dst, f).value;
    PutPlaces(r, dst, f);
    RemoveGone(n, src);
    if dst <= src {
      PrefixExists(n, dst, src);
    } else if src < dst {
      PutNeedsParent(r, dst, f, src);
    } else {
      PutApart(r, dst, f, src);
    }
    if Apart(q, src) && Apart(q, dst) {
      RemoveApart(n, src, q);
      PutApart(r, dst, f, q);
    }
  }

  /** A rename creates no file but the one at `dst`: every other file afterwards was there before, unchanged. */
  lemma RenameNoNewFiles(n: Node, src: Path, dst: Path, q: Path)
    requires Rename(n, src, dst).Some? && !Exists(n, dst)
    requires IsFileAt(Rename(n, src, dst).value, q) && q != dst
    ensures Lookup(n, q) == Lookup(Rename(n, src, dst).value, q)
  {
    var m := Rename(n, src, dst).value;
    var x := Lookup(n, src).value;
    RenameSpec(n, src, dst, q);
    assert !(src <= q) by {
      if src <= q {
        PrefixExists(m, src, q);
      }
    }
    assert !(dst < q) by {
      if dst < q {
        PrefixExists(m, dst, q);
      }
    }
    assert !(q < dst) by {
      if q < dst {
        PrefixExists(m, q, dst);
      }
    }
    assert !(q < src) by {
      if q < src {
        PrefixExists(n, q, src);
        RemoveKeepsDir(n, src, q);
        PutApart(Remove(n, src), dst, x, q);
      }
    }
  }

  /** A rename of an existing file into an existing directory succeeds. */
  lemma RenameSucceeds(n: Node, src: Path, d: Path, name: string)
    requires src != [] && IsFileAt(n, src) && IsDirAt(n, d)
    ensures Rename(n, src, d + [name]).Some?
  {
    if src == d {
      assert false;
    } else if src <= d {
      assert src < d;
      PrefixExists(n, src, d);
      assert false;
    }
    RemoveKeepsDir(n, src, d);
    assert (d + [name])[..|d|] == d;
    PutSucceeds(Remove(n, src), d + [name], Lookup(n, src).value);
  }

  /** The child-name view agrees with pathlib's `exists()` one level down. */
  lemma ChildNamesExist(n: Node, d: Path, name: string)
    ensures name in ChildNames(n, d) <==> Exists(n, d + [name])
  {
    if Exists(n, d + [name]) {
      ExistsChild(n, d, name);
    }
    if name in ChildNames(n, d) {
      var es := Lookup(n, d).value.entries;
      FindNames(es, name);
      LookupSplit(n, d, [name]);
    }
  }

  /** Creating a missing directory leaves it empty. */
  lemma {:induction false} MkdirAllFresh(n: Node, p: Path)
    requires !Exists(n, p) && MkdirAll(n, p).Some?
    ensures Lookup(MkdirAll(n, p).value, p) == Some(Dir([]))
  {
    var es := n.entries;
    var m := MkdirAll(n, p).value;
    match Find(es, p[0])
    case Some(i) =>
      var c' := MkdirAll(es[i].node, p[1..]).value;
      MkdirAllFresh(es[i].node, p[1..]);
      ChildOfUpdated(es, p[0], c', p[0]);
      LookupStep(m, p);
    case None =>
      ChainEnd(p[1..]);
      ChildOfAppended(es, p[0], Chain(p[1..]), p[0]);
      LookupStep(m, p);
  }

  lemma {:induction false} ChainEnd(q: Path)
    ensures Lookup(Chain(q), q) == Some(Dir([]))
  {
    if q != [] {
      ChainEnd(q[1..]);
      assert Find([Entry(q[0], Chain(q[1..]))], q[0]) == Some(0);
    }
  }

  lemma {:induction false} ChainNoFiles(x: Path, q: Path)
    ensures !IsFileAt(Chain(x), q)
  {
    if q != [] && x != [] && q[0] == x[0] {
      assert Find([Entry(x[0], Chain(x[1..]))], q[0]) == Some(0);
      ChainNoFiles(x[1..], q[1..]);
    }
  }

  /** `mkdir(parents=True)` creates directories only: every file after it was there before. */
  lemma {:induction false} MkdirAllNoNewFiles(n: Node, p: Path, q: Path)
    requires MkdirAll(n, p).Some? && IsFileAt(MkdirAll(n, p).value, q)
    ensures Lookup(n, q) == Lookup(MkdirAll(n, p).value, q)
  {
    var m := MkdirAll(n, p).value;
    if p != [] && q != [] {
      var es := n.entries;
      match Find(es, p[0])
      case Some(i) =>
        var c' := MkdirAll(es[i].node, p[1..]).value;
        ChildOfUpdated(es, p[0], c', q[0]);
        ChildOfUpdated(es, p[0], c', p[0]);
        LookupStep(n, q);
        LookupStep(m, q);
        if q[0] == p[0] {
          MkdirAllNoNewFiles(es[i].node, p[1..], q[1..]);
        }
      case None =>
        ChildOfAppended(es, p[0], Chain(p[1..]), q[0]);
        ChildOfAppended(es, p[0], Chain(p[1..]), p[0]);
        LookupStep(n, q);
        LookupStep(m, q);
        if q[0] == p[0] {
          ChainNoFiles(p[1..], q[1..]);
        }
    }
  }

  /** The only paths of a fresh chain of directories are the prefixes of its path. */
  lemma {:induction false} ChainPaths(x: Path, q: Path)
    requires Exists(Chain(x), q)
    ensures q <= x
  {
    if q != [] {
      assert x != [];
      assert Find([Entry(x[0], Chain(x[1..]))], q[0]) == Some(0);
      ChainPaths(x[1..], q[1..]);
      assert q == [q[0]] + q[1..] && x == [x[0]] + x[1..];
    }
  }

  /** `mkdir(parents=True)` adds only the missing levels of the path: every new path is a prefix of it. */
  lemma {:induction false} MkdirAllNoNewPaths(n: Node, p: Path, q: Path)
    requires MkdirAll(n, p).Some? && Exists(MkdirAll(n, p).value, q)
    ensures Exists(n, q) || q <= p
  {
    var m := MkdirAll(n, p).value;
    if p != [] && q != [] {
      var es := n.entries;
      match Find(es, p[0])
      case Some(i) =>
        var c' := MkdirAll(es[i].node, p[1..]).value;
        ChildOfUpdated(es, p[0], c', q[0]);
        ChildOfUpdated(es, p[0], c', p[0]);
        LookupStep(n, q);
        LookupStep(m, q);
        if q[0] == p[0] {
          MkdirAllNoNewPaths(es[i].node, p[1..], q[1..]);
          assert q == [q[0]] + q[1..] && p == [p[0]] + p[1..];
        }
      case None =>
        ChildOfAppended(es, p[0], Chain(p[1..]), q[0]);
        ChildOfAppended(es, p[0], Chain(p[1..]), p[0]);
        LookupStep(n, q);
        LookupStep(m, q);
        if q[0] == p[0] {
          ChainPaths(p[1..], q[1..]);
          assert q == [q[0]] + q[1..] && p == [p[0]] + p[1..];
        }
    }
  }

}

=== FILE: mover.dfy ===
/**
 * `ensure_dir` and `safe_move`: create the destination directory, pick the
 * first free name, rename the file there, and account for it in the stats.
 */
module Mover {

  import opened Opt
  import opened Counters
  import opened Text
  import opened FsTree

  /** What the environment makes fail during one move: the directory creation, the rename. */
  datatype Faults = Faults(mkdirFails: bool, moveFails: bool)

  /** The tree and stats after a move, and where the file went (`None` when the move raised). */
  datatype Outcome = Outcome(fs: Node, stats: Stats, dest: Option<Path>)

  /** No file stands at `p` or on the way to it, so `mkdir(parents=True)` can create it. */
  predicate NoFileOnWay(fs: Node, p: Path)
  {
    forall k :: 0 <= k <= |p| ==> !IsFileAt(fs, p[..k])
  }

  /**
   * `ensure_dir`: an existing path (directory or not) is left alone; a missing
   * one is created with all its parents and counted once as a created folder.
   * A failed creation raises (`None`) before any counter moves.
   */
  function EnsureDir(fs: Node, p: Path, stats: Stats, mkdirFails: bool): (r: Option<(Node, Stats)>)
    ensures Exists(fs, p) ==> r == Some((fs, stats))
    ensures !Exists(fs, p) ==> (r.Some? <==> !mkdirFails && NoFileOnWay(fs, p))
    ensures !Exists(fs, p) && r.Some? ==>
      && Lookup(r.value.0, p) == Some(Dir([]))
      && r.value.1 == stats.(foldersCreated := stats.foldersCreated + 1)
    ensures r.Some? ==> forall q :: IsFileAt(fs, q) ==> Lookup(r.value.0, q) == Lookup(fs, q)
    ensures r.Some? ==> forall q :: IsFileAt(r.value.0, q) ==> Lookup(fs, q) == Lookup(r.value.0, q)
    ensures r.Some? ==> forall q :: Exists(fs, q) && !(q < p) ==> Lookup(r.value.0, q) == Lookup(fs, q)
    ensures r.Some? ==> ChildNames(r.value.0, p) == ChildNames(fs, p)
    ensures r.Some? ==> forall q :: Exists(r.value.0, q) ==> Exists(fs, q) || q <= p
    ensures r.Some? ==> (IsDirAt(r.value.0, p) <==> !IsFileAt(fs, p))
  {
    if Exists(fs, p) then Some((fs, stats))
    else if mkdirFails then None
    else
      MkdirAllSpec(fs, p, []);
      match MkdirAll(fs, p)
      case None => None
      case Some(fs1) =>
        MkdirAllFresh(fs, p);
        assert forall q :: IsFileAt(fs, q) ==> Lookup(fs1, q) == Lookup(fs, q) by {
          forall q | IsFileAt(fs, q) ensures Lookup(fs1, q) == Lookup(fs, q) {
            MkdirAllSpec(fs, p, q);
            if q < p {
              FileBlocksWay(fs, p, q);
            }
          }
        }
        assert forall q :: IsFileAt(fs1, q) ==> Lookup(fs, q) == Lookup(fs1, q) by {
          forall q | IsFileAt(fs1, q) ensures Lookup(fs, q) == Lookup(fs1, q) {
            MkdirAllNoNewFiles(fs, p, q);
          }
        }
        assert forall q :: Exists(fs, q) && !(q < p) ==> Lookup(fs1, q) == Lookup(fs, q) by {
          forall q | Exists(fs, q) && !(q < p) ensures Lookup(fs1, q) == Lookup(fs, q) {
            MkdirAllSpec(fs, p, q);
          }
        }
        assert forall q :: Exists(fs1, q) ==> Exists(fs, q) || q <= p by {
          forall q | Exists(fs1, q) ensures Exists(fs, q) || q <= p {
            MkdirAllNoNewPaths(fs, p, q);
          }
        }
        Some((fs1, stats.(foldersCreated := stats.foldersCreated + 1)))
  }

  lemma FileBlocksWay(fs: Node, p: Path, q: Path)
    requires NoFileOnWay(fs, p) && q <= p
    ensures !IsFileAt(fs, q)
  {
    assert p[..|q|] == q;
  }

  /** The `i`-th rename candidate: `stem (i)suffix`. */
  function Candidate(stem: string, i: nat, suffix: string): string
  {
    stem + " (" + Decimal(i) + ")" + suffix
  }

  lemma CandidateInjective(stem: string, suffix: string, i: nat, j: nat)
    requires Candidate(stem, i, suffix) == Candidate(stem, j, suffix)
    ensures i == j
  {
    var a, b := Candidate(stem, i, suffix), Candidate(stem, j, suffix);
    var lo := |stem| + 2;
    assert |Decimal(i)| == |Decimal(j)|;
    assert a[lo..lo + |Decimal(i)|] == Decimal(i);
    assert b[lo..lo + |Decimal(j)|] == Decimal(j);
    DecimalInjective(i, j);
  }

  /** The candidates numbered 1 to n. */
  function Candidates(stem: string, suffix: string, n: nat): set<string>
  {
    set k | 1 <= k <= n :: Candidate(stem, k, suffix)
  }

  lemma {:induction false} CandidatesSize(stem: string, suffix: string, n: nat)
    ensures |Candidates(stem, suffix, n)| == n
  {
    if n > 0 {
      CandidatesSize(stem, suffix, n - 1);
      var c := Candidate(stem, n, suffix);
      assert Candidates(stem, suffix, n) == Candidates(stem, suffix, n - 1) + {c};
      if c in Candidates(stem, suffix, n - 1) {
        var k :| 1 <= k <= n - 1 && Candidate(stem, k, suffix) == c;
        CandidateInjective(stem, suffix, k, n);
        assert false;
      }
    }
  }

  /** A directory with `m` names cannot hold more than `m` distinct candidates. */
  lemma CandidatesFill(names: set<string>, stem: string, suffix: string, n: nat)
    requires forall k :: 1 <= k <= n ==> Candidate(stem, k, suffix) in names
    ensures n <= |names|
  {
    CandidatesSize(stem, suffix, n);
    var c := Candidates(stem, suffix, n);
    assert c <= names;
    assert names == c + (names - c);
    assert c * (names - c) == {};
  }

  /** The auto-rename loop from index `i` on: stops at the first candidate not present. */
  function FreeIndexFrom(names: set<string>, stem: string, suffix: string, i: nat): (r: nat)
    requires 1 <= i <= |names| + 1
    requires forall k :: 1 <= k < i ==> Candidate(stem, k, suffix) in names
    ensures i <= r <= |names| + 1
    ensures Candidate(stem, r, suffix) !in names
    ensures forall k :: 1 <= k < r ==> Candidate(stem, k, suffix) in names
    decreases |names| + 1 - i
  {
    if Candidate(stem, i, suffix) !in names then i
    else
      CandidatesFill(names, stem, suffix, i);
      FreeIndexFrom(names, stem, suffix, i + 1)
  }

  /**
   * The rename index: the smallest `i >= 1` whose candidate is not present,
   * which always exists within `|names| + 1` steps for a finite directory.
   */
  function FreeIndex(names: set<string>, stem: string, suffix: string): (r: nat)
    ensures 1 <= r <= |names| + 1
    ensures Candidate(stem, r, suffix) !in names
    ensures forall k :: 1 <= k < r ==> Candidate(stem, k, suffix) in names
  {
    FreeIndexFrom(names, stem, suffix, 1)
  }

  /**
   * The name the file gets in its destination: its own name when that is
   * free, else the first free `stem (i)suffix`. It is never already present.
   */
  function ChooseName(names: set<string>, name: string): (r: string)
    ensures r !in names
    ensures name !in names ==> r == name
    ensures name in names ==> r == Candidate(Stem(name), FreeIndex(names, Stem(name), Suffix(name)), Suffix(name))
  {
    if name !in names then name
    else Candidate(Stem(name), FreeIndex(names, Stem(name), Suffix(name)), Suffix(name))
  }

  /** `ensure_dir` returns normally. */
  predicate EnsureOk(fs: Node, p: Path, f: Faults)
  {
    Exists(fs, p) || (!f.mkdirFails && NoFileOnWay(fs, p))
  }

  /**
   * `safe_move`: make sure the destination exists, count the file as scanned,
   * and rename it to the chosen free name; a failed rename counts an error and
   * raises. A failed directory creation raises before anything is counted.
   */
  function SafeMove(fs: Node, stats: Stats, src: Path, destDir: Path, f: Faults): (r: Outcome)
    requires src != []
    ensures Grows(stats, r.stats)
    ensures r.stats.foldersDeleted == stats.foldersDeleted
    ensures r.stats.foldersCreated <= stats.foldersCreated + 1
    ensures r.stats.foldersCreated == stats.foldersCreated + 1 ==> !Exists(fs, destDir)
    ensures !EnsureOk(fs, destDir, f) ==> r == Outcome(fs, stats, None)
    ensures EnsureOk(fs, destDir, f) ==>
      && r.stats.scanned == stats.scanned + 1
      && r.stats.filesMoved + r.stats.errors == stats.filesMoved + stats.errors + 1
      && (r.dest.Some? <==> r.stats.filesMoved == stats.filesMoved + 1)
    ensures Balanced(stats) ==> Balanced(r.stats)
    ensures r.dest.None? ==> forall q :: (IsFileAt(fs, q) <==> IsFileAt(r.fs, q)) && (IsFileAt(fs, q) ==> Lookup(r.fs, q) == Lookup(fs, q))
    ensures forall q :: IsFileAt(r.fs, q) ==> (r.dest.Some? && q == r.dest.value) || Lookup(fs, q) == Lookup(r.fs, q)
  {
    match EnsureDir(fs, destDir, stats, f.mkdirFails)
    case None => Outcome(fs, stats, None)
    case Some((fs1, s1)) =>
      var s2 := s1.(scanned := s1.scanned + 1);
      var dst := destDir + [ChooseName(ChildNames(fs1, destDir), src[|src| - 1])];
      if f.moveFails then Outcome(fs1, s2.(errors := s2.errors + 1), None)
      else match Rename(fs1, src, dst)
        case None => Outcome(fs1, s2.(errors := s2.errors + 1), None)
        case Some(fs2) =>
          assert forall q :: IsFileAt(fs2, q) && q != dst ==> Lookup(fs, q) == Lookup(fs2, q) by {
            ChildNamesExist(fs1, destDir, dst[|dst| - 1]);
            assert dst[..|destDir|] == destDir;
            forall q | IsFileAt(fs2, q) && q != dst ensures Lookup(fs, q) == Lookup(fs2, q) {
              RenameNoNewFiles(fs1, src, dst, q);
            }
          }
          Outcome(fs2, s2.(filesMoved := s2.filesMoved + 1), Some(dst))
  }

  /**
   * Where a successful move puts the file: into `destDir` under the chosen
   * free name (its own name when the destination does not have it), with the
   * file gone from `src` and nothing else that existed beside them disturbed.
   */
  lemma SafeMovePlacement(fs: Node, stats: Stats, src: Path, destDir: Path, f: Faults, q: Path)
    requires src != []
    requires SafeMove(fs, stats, src, destDir, f).dest.Some?
    ensures var r := SafeMove(fs, stats, src, destDir, f);
      && r.dest.value == destDir + [ChooseName(ChildNames(fs, destDir), src[|src| - 1])]
      && !Exists(fs, r.dest.value)
      && Lookup(r.fs, r.dest.value) == Lookup(fs, src)
      && IsFileAt(fs, src)
      && Lookup(r.fs, src) == None
      && (Exists(fs, q) && Apart(q, src) && Apart(q, r.dest.value) ==> Lookup(r.fs, q) == Lookup(fs, q))
  {
    var r := SafeMove(fs, stats, src, destDir, f);
    var (fs1, s1) := EnsureDir(fs, destDir, stats, f.mkdirFails).value;
    var name := ChooseName(ChildNames(fs, destDir), src[|src| - 1]);
    var dst := destDir + [name];
    assert Rename(fs1, src, dst) == Some(r.fs);
    assert IsFileAt(fs1, src);
    ChildNamesExist(fs, destDir, name);
    ChildNamesExist(fs1, destDir, name);
    RenameSpec(fs1, src, dst, q);
    if Exists(fs, q) && Apart(q, src) && Apart(q, dst) {
      assert !(q < destDir);
    }
  }

  /**
   * A successful move disturbs no file but the one it moves. In particular the
   * file that already held the name in the destination directory is still
   * there, so after a collision both files are present.
   */
  lemma SafeMoveKeepsOtherFiles(fs: Node, stats: Stats, src: Path, destDir: Path, f: Faults, q: Path)
    requires src != []
    requires IsFileAt(fs, q) && q != src
    ensures SafeMove(fs, stats, src, destDir, f).dest.Some? ==>
      Lookup(SafeMove(fs, stats, src, destDir, f).fs, q) == Lookup(fs, q)
  {
    var r := SafeMove(fs, stats, src, destDir, f);
    if r.dest.Some? {
      SafeMovePlacement(fs, stats, src, destDir, f, q);
      var dst := r.dest.value;
      var (fs1, s1) := EnsureDir(fs, destDir, stats, f.mkdirFails).value;
      assert dst == destDir + [ChooseName(ChildNames(fs1, destDir), src[|src| - 1])];
      assert Rename(fs1, src, dst) == Some(r.fs);
      assert IsFileAt(fs1, q) && IsFileAt(fs1, src);
      var x := Lookup(fs1, src).value;
      assert !(q < src) by {
        if q < src {
          PrefixExists(fs, q, src);
        }
      }
      assert !(src < q) by {
        if src < q {
          PrefixExists(fs, src, q);
        }
      }
      assert Apart(q, src);
      assert !(q < dst) by {
        if q < dst {
          PutNeedsParent(Remove(fs1, src), dst, x, q);
          RemoveApart(fs1, src, q);
        }
      }
      assert !(dst <= q) by {
        if dst <= q {
          PrefixExists(fs, dst, q);
        }
      }
    }
  }

  /**
   * The move goes through whenever the destination directory can be made, the
   * source is a regular file, and the environment does not make the rename fail.
   */
  lemma SafeMoveSucceeds(fs: Node, stats: Stats, src: Path, destDir: Path, f: Faults)
    requires src != [] && IsFileAt(fs, src) && !IsFileAt(fs, destDir)
    requires EnsureOk(fs, destDir, f) && !f.moveFails
    ensures SafeMove(fs, stats, src, destDir, f).dest.Some?
  {
    var (fs1, s1) := EnsureDir(fs, destDir, stats, f.mkdirFails).value;
    assert IsDirAt(fs1, destDir);
    assert IsFileAt(fs1, src);
    RenameSucceeds(fs1, src, destDir, ChooseName(ChildNames(fs1, destDir), src[|src| - 1]));
  }

  /**
   * A file that already sits in its destination directory collides with
   * itself: it is renamed in place to the first free `stem (i)suffix`.
   */
  lemma SelfCollision(fs: Node, stats: Stats, destDir: Path, name: string, f: Faults)
    requires IsFileAt(fs, destDir + [name]) && !f.moveFails
    ensures var names := ChildNames(fs, destDir);
      SafeMove(fs, stats, destDir + [name], destDir, f).dest ==
        Some(destDir + [Candidate(Stem(name), FreeIndex(names, Stem(name), Suffix(name)), Suffix(name))])
  {
    ChildNamesExist(fs, destDir, name);
    PrefixExists(fs, destDir, destDir + [name]);
    var src := destDir + [name];
    assert src[|src| - 1] == name;
    SafeMoveSucceeds(fs, stats, src, destDir, f);
    SafeMovePlacement(fs, stats, src, destDir, f, []);
  }

}

=== FILE: option.dfy ===
/** The optional value used wherever the organizer either produces something or raises. */
module Opt {

  datatype Option<+T> = None | Some(value: T)

}

=== FILE: planner.dfy ===
/**
 * The three destination planners and the method dispatch that picks one:
 * type then date, date then type, or the flat type layout.
 */
module Planner {

  import opened Opt
  import opened Counters
  import opened Text
  import opened FsTree
  import opened Rules
  import opened Mover

  datatype Layout = TypeDate | DateType | FlatType

  /** The method dispatch: "type_date" and "date_type" select the dated layouts, anything else the flat one. */
  function LayoutOf(mode: string): (l: Layout)
    ensures l == TypeDate <==> mode == "type_date"
    ensures l == DateType <==> mode == "date_type"
    ensures l == FlatType <==> mode != "type_date" && mode != "date_type"
  {
    if mode == "type_date" then TypeDate
    else if mode == "date_type" then DateType
    else FlatType
  }

  const MonthAbbrevs: seq<string> := ["Jan", "Feb", "Mar", "Apr", "May", "Jun", "Jul", "Aug", "Sep", "Oct", "Nov", "Dec"]

  /** The `%b` month name of the C locale: three letters, and no other month has it. */
  function MonthAbbrev(m: Month): (r: string)
    ensures |r| == 3
    ensures r in MonthAbbrevs
    ensures forall i :: 0 <= i < |MonthAbbrevs| && i != m - 1 ==> MonthAbbrevs[i] != r
  {
    MonthAbbrevs[m - 1]
  }

  /** The category a file name is classified into: its suffix, normalised, looked up first-match. */
  function CategoryOf(name: string, rules: seq<Rule>): (r: string)
    ensures r == Fallback || r in Categories(rules)
    ensures forall i :: FirstHolder(NormalizeExt(Suffix(name)), rules, i) ==> r == rules[i].category
    ensures (forall i :: 0 <= i < |rules| ==> NormalizeExt(Suffix(name)) !in rules[i].exts) ==> r == Fallback
  {
    ResolveSpec(NormalizeExt(Suffix(name)), rules);
    Resolve(NormalizeExt(Suffix(name)), rules)
  }

  /**
   * The destination directory of a file in category `cat` whose mtime falls in
   * `year`/`month`. It always lies at or below `target`: three levels below
   * for the dated layouts (two when the category adds no component), one
   * below for the flat layout, and at `target` itself only for the flat layout
   * with a category that adds no component.
   */
  function PlanDest(target: Path, layout: Layout, cat: string, year: nat, month: Month): (d: Path)
    ensures target <= d
    ensures layout != FlatType ==> |d| == |target| + |JoinName([], cat)| + 2
    ensures layout == FlatType ==> |d| == |target| + |JoinName([], cat)|
    ensures target == d <==> layout == FlatType && (cat == "" || cat == ".")
    ensures cat != "" && cat != "." ==>
      && (layout == TypeDate ==> d == target + [cat, Decimal(year), MonthAbbrev(month)])
      && (layout == DateType ==> d == target + [Decimal(year), MonthAbbrev(month), cat])
      && (layout == FlatType ==> d == target + [cat])
    ensures cat == "" || cat == "." ==>
      && (layout != FlatType ==> d == target + [Decimal(year), MonthAbbrev(month)])
      && (layout == FlatType ==> d == target)
  {
    match layout
    case TypeDate => JoinName(target, cat) + [Decimal(year), MonthAbbrev(month)]
    case DateType => JoinName(target + [Decimal(year), MonthAbbrev(month)], cat)
    case FlatType => JoinName(target, cat)
  }

  /**
   * The destination of `src`, or `None` when a dated layout must read the
   * modification time of a file that is no longer there (the flat layout
   * never reads it).
   */
  function Destination(fs: Node, src: Path, target: Path, layout: Layout, rules: seq<Rule>): (r: Option<Path>)
    requires src != []
    ensures layout == FlatType ==> r == Some(PlanDest(target, FlatType, CategoryOf(src[|src| - 1], rules), 0, 1))
    ensures layout != FlatType ==> (r.Some? <==> IsFileAt(fs, src))
    ensures layout != FlatType && r.Some? ==>
      var file := Lookup(fs, src).value;
      r.value == PlanDest(target, layout, CategoryOf(src[|src| - 1], rules), file.year, file.month)
  {
    var cat := CategoryOf(src[|src| - 1], rules);
    if layout == FlatType then Some(PlanDest(target, FlatType, cat, 0, 1))
    else if IsFileAt(fs, src) then
      var file := Lookup(fs, src).value;
      Some(PlanDest(target, layout, cat, file.year, file.month))
    else None
  }

  /**
   * The organize step for one file (`organize_by_type_then_date`,
   * `organize_by_date_then_type`, `organize_flat_type`): plan, then move.
   * A vanished file in a dated layout raises before `safe_move`, with nothing
   * counted; otherwise the stats change as `safe_move` says.
   */
  function Organize(fs: Node, stats: Stats, src: Path, target: Path, layout: Layout, rules: seq<Rule>, f: Faults): (r: Outcome)
    requires src != []
    ensures Grows(stats, r.stats)
    ensures r.stats.foldersDeleted == stats.foldersDeleted
    ensures r.stats.foldersCreated <= stats.foldersCreated + 1
    ensures r.stats.scanned <= stats.scanned + 1
    ensures Balanced(stats) ==> Balanced(r.stats)
    ensures Settled(stats, r.stats)
    ensures layout != FlatType && !IsFileAt(fs, src) ==> r == Outcome(fs, stats, None)
    ensures r.dest.Some? ==> r.stats.filesMoved == stats.filesMoved + 1 && r.stats.scanned == stats.scanned + 1
    ensures r.dest.Some? ==> IsFileAt(fs, src) && Lookup(r.fs, r.dest.value) == Lookup(fs, src) && Lookup(r.fs, src) == None
    ensures r.dest.None? ==> forall q :: (IsFileAt(fs, q) <==> IsFileAt(r.fs, q)) && (IsFileAt(fs, q) ==> Lookup(r.fs, q) == Lookup(fs, q))
    ensures forall q :: IsFileAt(r.fs, q) ==> (r.dest.Some? && q == r.dest.value) || Lookup(fs, q) == Lookup(r.fs, q)
  {
    match Destination(fs, src, target, layout, rules)
    case None => Outcome(fs, stats, None)
    case Some(d) =>
      var r := SafeMove(fs, stats, src, d, f);
      assert r.dest.Some? ==> IsFileAt(fs, src) && Lookup(r.fs, r.dest.value) == Lookup(fs, src) && Lookup(r.fs, src) == None by {
        if r.dest.Some? {
          SafeMovePlacement(fs, stats, src, d, f, []);
        }
      }
      r
  }

  /** A successful organize step puts the file directly into its planned directory, under the chosen free name. */
  lemma OrganizePlacement(fs: Node, stats: Stats, src: Path, target: Path, layout: Layout, rules: seq<Rule>, f: Faults)
    requires src != []
    ensures var o := Organize(fs, stats, src, target, layout, rules, f);
      o.dest.Some? ==>
        var d := Destination(fs, src, target, layout, rules).value;
        o.dest.value == d + [ChooseName(ChildNames(fs, d), src[|src| - 1])]
  {
    if Organize(fs, stats, src, target, layout, rules, f).dest.Some? {
      var d := Destination(fs, src, target, layout, rules).value;
      SafeMovePlacement(fs, stats, src, d, f, []);
    }
  }

  /** A successful organize step leaves every other file where it was, the one holding the name included. */
  lemma OrganizeKeepsOtherFiles(fs: Node, stats: Stats, src: Path, target: Path, layout: Layout, rules: seq<Rule>, f: Faults, q: Path)
    requires src != []
    requires IsFileAt(fs, q) && q != src
    ensures var o := Organize(fs, stats, src, target, layout, rules, f);
      o.dest.Some? ==> Lookup(o.fs, q) == Lookup(fs, q)
  {
    if Organize(fs, stats, src, target, layout, rules, f).dest.Some? {
      var d := Destination(fs, src, target, layout, rules).value;
      SafeMoveKeepsOtherFiles(fs, stats, src, d, f, q);
    }
  }

  lemma Year2023()
    ensures Decimal(2023) == "2023"
  {
    assert Decimal(2) == "2";
    assert Decimal(20) == "20";
    assert Decimal(202) == "202";
  }

  lemma PhotoJpgSuffix()
    ensures Suffix("photo.jpg") == ".jpg"
  {
    assert "photo."[5] == '.';
    assert LastDot("photo.") == 5;
    assert "photo.j"[..6] == "photo.";
    assert LastDot("photo.j") == 5;
    assert "photo.jp"[..7] == "photo.j";
    assert LastDot("photo.jp") == 5;
    assert "photo.jpg"[..8] == "photo.jp";
    assert LastDot("photo.jpg") == 5;
  }

  lemma PhotoJpgIsImage()
    ensures CategoryOf("photo.jpg", BuildRules([])) == "Images"
  {
    PhotoJpgSuffix();
    JpgIsImage();
  }

  lemma PlanExample(target: Path)
    ensures PlanDest(target, TypeDate, "Images", 2023, 3) == target + ["Images", "2023", "Mar"]
    ensures PlanDest(target, DateType, "Images", 2023, 3) == target + ["2023", "Mar", "Images"]
    ensures PlanDest(target, FlatType, "Images", 0, 1) == target + ["Images"]
  {
    Year2023();
    assert MonthAbbrev(3) == "Mar";
  }

  /**
   * The worked example: without custom rules, a ".jpg" file last modified in
   * March 2023 is planned into Images/2023/Mar, 2023/Mar/Images or Images.
   */
  lemma MarchJpgExample(fs: Node, target: Path, dir: Path)
    requires Lookup(fs, dir + ["photo.jpg"]) == Some(File(2023, 3))
    ensures Destination(fs, dir + ["photo.jpg"], target, TypeDate, BuildRules([])) == Some(target + ["Images", "2023", "Mar"])
    ensures Destination(fs, dir + ["photo.jpg"], target, DateType, BuildRules([])) == Some(target + ["2023", "Mar", "Images"])
    ensures Destination(fs, dir + ["photo.jpg"], target, FlatType, BuildRules([])) == Some(target + ["Images"])
  {
    var src := dir + ["photo.jpg"];
    assert src[|src| - 1] == "photo.jpg";
    PhotoJpgIsImage();
    PlanExample(target);
    DatedExample(fs, src, target, TypeDate, BuildRules([]));
    DatedExample(fs, src, target, DateType, BuildRules([]));
  }

  lemma DatedExample(fs: Node, src: Path, target: Path, layout: Layout, rules: seq<Rule>)
    requires src != [] && Lookup(fs, src) == Some(File(2023, 3)) && layout != FlatType
    ensures Destination(fs, src, target, layout, rules) ==
      Some(PlanDest(target, layout, CategoryOf(src[|src| - 1], rules), 2023, 3))
  {
  }

}

=== FILE: reaper.dfy ===
/**
 * `delete_empty_folders`: a bottom-up pass that removes every directory
 * below the root that is empty when inspected, children before parents, and
 * swallows removal failures.
 */
module Reaper {

  import opened Opt
  import opened Counters
  import opened FsTree

  /** The number of directory nodes in a tree, the node itself included. */
  function DirCount(n: Node): nat
  {
    match n
    case File(_, _) => 0
    case Dir(es) => 1 + DirCountAll(es)
  }

  function DirCountAll(es: seq<Entry>): nat
  {
    if es == [] then 0 else DirCount(es[0].node) + DirCountAll(es[1..])
  }

  /** The number of files in a tree. */
  function FileCount(n: Node): nat
  {
    match n
    case File(_, _) => 1
    case Dir(es) => FileCountAll(es)
  }

  function FileCountAll(es: seq<Entry>): nat
  {
    if es == [] then 0 else FileCount(es[0].node) + FileCountAll(es[1..])
  }

  /**
   * A directory the pass removes: it refuses no removal itself, and all it
   * holds are directories the pass removes first.
   */
  predicate Removable(n: Node, here: Path, fails: Path -> bool)
  {
    match n
    case File(_, _) => false
    case Dir(es) => !fails(here) && RemovableAll(es, here, fails)
  }

  predicate RemovableAll(es: seq<Entry>, here: Path, fails: Path -> bool)
  {
    es == [] || (Removable(es[0].node, here + [es[0].name], fails) && RemovableAll(es[1..], here, fails))
  }

  /**
   * The pass over the tree at `here`: every subdirectory is processed before
   * it is inspected, and is removed when it is then empty and its removal
   * does not fail. Yields the remaining tree and the number of removals. The
   * node itself is never removed, no file is lost, and every removal takes
   * exactly one directory away.
   */
  function Reap(n: Node, here: Path, fails: Path -> bool): (r: (Node, nat))
    ensures r.0.Dir? == n.Dir?
    ensures FileCount(r.0) == FileCount(n)
    ensures DirCount(n) == DirCount(r.0) + r.1
  {
    match n
    case File(_, _) => (n, 0)
    case Dir(es) =>
      var (kept, count) := ReapAll(es, here, fails);
      (Dir(kept), count)
  }

  function ReapAll(es: seq<Entry>, here: Path, fails: Path -> bool): (r: (seq<Entry>, nat))
    ensures FileCountAll(r.0) == FileCountAll(es)
    ensures DirCountAll(es) == DirCountAll(r.0) + r.1
  {
    if es == [] then ([], 0)
    else
      var e := es[0];
      var (sub, c) := Reap(e.node, here + [e.name], fails);
      var (rest, c') := ReapAll(es[1..], here, fails);
      if sub == Dir([]) && !fails(here + [e.name]) then
        (rest, c + c' + 1)
      else
        var kept := [Entry(e.name, sub)] + rest;
        assert kept[1..] == rest;
        (kept, c + c')
  }

  /** The surviving entries by the declarative rule: drop the removable ones, reap the rest. */
  function Survivors(es: seq<Entry>, here: Path, fails: Path -> bool): seq<Entry>
  {
    if es == [] then []
    else
      var e := es[0];
      (if Removable(e.node, here + [e.name], fails) then [] else [Entry(e.name, Reap(e.node, here + [e.name], fails).0)])
        + Survivors(es[1..], here, fails)
  }

  /** A directory is emptied by the pass exactly when everything it holds is removable. */
  lemma {:induction false} ReapEmpties(n: Node, here: Path, fails: Path -> bool)
    ensures Reap(n, here, fails).0 == Dir([]) <==> n.Dir? && RemovableAll(n.entries, here, fails)
  {
    if n.Dir? {
      ReapAllSurvivors(n.entries, here, fails);
      SurvivorsEmpty(n.entries, here, fails);
    }
  }

  /** The pass keeps exactly the entries the declarative rule keeps, in listing order. */
  lemma {:induction false} ReapAllSurvivors(es: seq<Entry>, here: Path, fails: Path -> bool)
    ensures ReapAll(es, here, fails).0 == Survivors(es, here, fails)
    decreases es, 1
  {
    if es != [] {
      var e := es[0];
      ReapEmpties(e.node, here + [e.name], fails);
      ReapAllSurvivors(es[1..], here, fails);
    }
  }

  lemma {:induction false} SurvivorsEmpty(es: seq<Entry>, here: Path, fails: Path -> bool)
    ensures Survivors(es, here, fails) == [] <==> RemovableAll(es, here, fails)
  {
    if es != [] {
      SurvivorsEmpty(es[1..], here, fails);
    }
  }

  /** A tree that holds a file is never removable, so no directory holding a file is removed. */
  lemma {:induction false} FileBlocksRemoval(n: Node, here: Path, fails: Path -> bool)
    requires FileCount(n) > 0
    ensures !Removable(n, here, fails)
  {
    if n.Dir? {
      FileBlocksRemovalAll(n.entries, here, fails);
    }
  }

  lemma {:induction false} FileBlocksRemovalAll(es: seq<Entry>, here: Path, fails: Path -> bool)
    requires FileCountAll(es) > 0
    ensures !RemovableAll(es, here, fails)
  {
    if FileCount(es[0].node) > 0 {
      FileBlocksRemoval(es[0].node, here + [es[0].name], fails);
    } else {
      FileBlocksRemovalAll(es[1..], here, fails);
    }
  }

  /** Without files and without failures, every directory is removable. */
  lemma {:induction false} EmptyTreeRemovable(n: Node, here: Path, fails: Path -> bool)
    requires n.Dir? && FileCount(n) == 0
    requires forall p :: !fails(p)
    ensures Removable(n, here, fails)
  {
    EmptyTreeRemovableAll(n.entries, here, fails);
  }

  lemma {:induction false} EmptyTreeRemovableAll(es: seq<Entry>, here: Path, fails: Path -> bool)
    requires FileCountAll(es) == 0
    requires forall p :: !fails(p)
    ensures RemovableAll(es, here, fails)
  {
    if es != [] {
      EmptyTreeRemovable(es[0].node, here + [es[0].name], fails);
      EmptyTreeRemovableAll(es[1..], here, fails);
    }
  }

  /**
   * A tree of nested directories with no file anywhere disappears in one pass
   * when no removal fails: only the root is left, empty, and the count is the
   * number of directories below it.
   */
  lemma NestedEmptyVanish(n: Node, here: Path, fails: Path -> bool)
    requires n.Dir? && FileCount(n) == 0
    requires forall p :: !fails(p)
    ensures Reap(n, here, fails) == (Dir([]), DirCount(n) - 1)
  {
    EmptyTreeRemovableAll(n.entries, here, fails);
    ReapEmpties(n, here, fails);
  }

  /**
   * The reaper on the directory at `path`: the subtree is replaced by its
   * reaped version and `folders_deleted` grows by the number of removals;
   * nothing outside the subtree changes, and a path that is not a directory
   * is walked as nothing.
   */
  function ReapAt(fs: Node, stats: Stats, path: Path, fails: Path -> bool): (r: (Node, Stats))
    ensures Grows(stats, r.1)
    ensures r.1 == stats.(foldersDeleted := r.1.foldersDeleted)
    ensures IsDirAt(fs, path) ==> IsDirAt(r.0, path)
    ensures IsDirAt(fs, path) ==>
      var sub := Reap(Lookup(fs, path).value, path, fails);
      Lookup(r.0, path) == Some(sub.0) && r.1.foldersDeleted == stats.foldersDeleted + sub.1
    ensures !IsDirAt(fs, path) ==> r == (fs, stats)
    ensures FileCount(r.0) == FileCount(fs)
    ensures DirCount(fs) == DirCount(r.0) + (r.1.foldersDeleted - stats.foldersDeleted)
    ensures forall q :: Apart(q, path) ==> Lookup(r.0, q) == Lookup(fs, q)
  {
    if !IsDirAt(fs, path) then (fs, stats)
    else
      var (sub, count) := Reap(Lookup(fs, path).value, path, fails);
      PutCounts(fs, path, sub);
      PutPlaces(fs, path, sub);
      assert forall q :: Apart(q, path) ==> Lookup(Put(fs, path, sub).value, q) == Lookup(fs, q) by {
        forall q | Apart(q, path) ensures Lookup(Put(fs, path, sub).value, q) == Lookup(fs, q) {
          PutApart(fs, path, sub, q);
        }
      }
      (Put(fs, path, sub).value, stats.(foldersDeleted := stats.foldersDeleted + count))
  }

  lemma PutAtExisting(fs: Node, p: Path, x: Node)
    requires Exists(fs, p)
    ensures Put(fs, p, x).Some?
  {
    if p != [] {
      PrefixExists(fs, p[..|p| - 1], p);
      PutSucceeds(fs, p, x);
    }
  }

  /** Replacing the node at an existing path trades its counts for those of the new node. */
  lemma {:induction false} PutCounts(n: Node, p: Path, x: Node)
    requires Exists(n, p)
    ensures Put(n, p, x).Some?
    ensures FileCount(Put(n, p, x).value) + FileCount(Lookup(n, p).value) == FileCount(n) + FileCount(x)
    ensures DirCount(Put(n, p, x).value) + DirCount(Lookup(n, p).value) == DirCount(n) + DirCount(x)
  {
    PutAtExisting(n, p, x);
    if p != [] {
      var es := n.entries;
      var i := Find(es, p[0]).value;
      PutCounts(es[i].node, p[1..], x);
      var c := Put(es[i].node, p[1..], x).value;
      CountAllUpdate(es, i, Entry(p[0], c));
    }
  }

  lemma {:induction false} CountAllUpdate(es: seq<Entry>, i: nat, e: Entry)
    requires i < |es|
    ensures FileCountAll(es[i := e]) + FileCount(es[i].node) == FileCountAll(es) + FileCount(e.node)
    ensures DirCountAll(es[i := e]) + DirCount(es[i].node) == DirCountAll(es) + DirCount(e.node)
  {
    if i == 0 {
      assert es[i := e][1..] == es[1..];
    } else {
      assert es[i := e][1..] == es[1..][i - 1 := e];
      CountAllUpdate(es[1..], i - 1, e);
    }
  }

}

=== FILE: rules.dfy ===
/**
 * The rule table: user categories overlaid on the built-in defaults, and the
 * first-match classification of a normalised extension.
 */
module Rules {

  import opened Text

  /** One row of the ordered rule table: a category and its extension list. */
  datatype Rule = Rule(category: string, exts: seq<string>)

  /** The user's custom rules, in the insertion order of the configuration mapping. */
  type CustomRules = seq<(string, seq<string>)>

  /** The category every unmatched extension falls back to. */
  const Fallback: string := "Others"

  /** The built-in defaults, in declaration order. */
  const DefaultRules: seq<Rule> := [
    Rule("Images", ["jpg", "jpeg", "png", "gif", "bmp", "svg", "webp", "heic"]),
    Rule("Videos", ["mp4", "mkv", "mov", "avi", "webm"]),
    Rule("Audio", ["mp3", "wav", "flac", "aac", "m4a"]),
    Rule("Documents", ["pdf", "doc", "docx", "xls", "xlsx", "ppt", "pptx", "txt", "rtf"]),
    Rule("Archives", ["zip", "rar", "7z", "tar", "gz", "bz2"]),
    Rule("Code", ["js", "jsx", "ts", "tsx", "py", "java", "c", "cpp", "html", "css", "json"]),
    Rule("Installers", ["exe", "msi", "deb", "rpm"]),
    Rule("Others", [])
  ]

  /** A mapping's keys are pairwise distinct. */
  predicate DistinctKeys(custom: CustomRules)
  {
    forall i, j :: 0 <= i < j < |custom| ==> custom[i].0 != custom[j].0
  }

  predicate DistinctCategories(rules: seq<Rule>)
  {
    forall i, j :: 0 <= i < j < |rules| ==> rules[i].category != rules[j].category
  }

  function Keys(custom: CustomRules): set<string>
  {
    set i | 0 <= i < |custom| :: custom[i].0
  }

  function Categories(rules: seq<Rule>): set<string>
  {
    set i | 0 <= i < |rules| :: rules[i].category
  }

  /** Every extension of a list normalised, in order. */
  function NormalizeAll(xs: seq<string>): (r: seq<string>)
    ensures |r| == |xs|
    ensures forall i :: 0 <= i < |xs| ==> r[i] == NormalizeExt(xs[i])
  {
    seq(|xs|, i requires 0 <= i < |xs| => NormalizeExt(xs[i]))
  }

  /** The defaults whose category is not a custom key, in default order. */
  function KeptDefaults(defaults: seq<Rule>, keys: set<string>): (r: seq<Rule>)
    ensures |r| <= |defaults|
    ensures forall d :: d in r <==> d in defaults && d.category !in keys
  {
    if defaults == [] then []
    else
      var rest := KeptDefaults(defaults[1..], keys);
      assert forall d :: d in defaults <==> d == defaults[0] || d in defaults[1..];
      if defaults[0].category in keys then rest else [defaults[0]] + rest
  }

  function NormalizeRule(r: Rule): Rule
  {
    Rule(r.category, NormalizeAll(r.exts))
  }

  function NormalizeRules(rs: seq<Rule>): (r: seq<Rule>)
    ensures |r| == |rs|
    ensures forall i :: 0 <= i < |rs| ==> r[i] == NormalizeRule(rs[i])
  {
    seq(|rs|, i requires 0 <= i < |rs| => NormalizeRule(rs[i]))
  }

  /** The custom categories as rule rows, in caller order, lists normalised. */
  function CustomRows(custom: CustomRules): (r: seq<Rule>)
    ensures |r| == |custom|
    ensures forall i :: 0 <= i < |custom| ==> r[i] == Rule(custom[i].0, NormalizeAll(custom[i].1))
    ensures Categories(r) == Keys(custom)
    ensures DistinctKeys(custom) ==> DistinctCategories(r)
  {
    var r := seq(|custom|, i requires 0 <= i < |custom| => Rule(custom[i].0, NormalizeAll(custom[i].1)));
    assert forall c :: c in Keys(custom) ==> c in Categories(r) by {
      forall c | c in Keys(custom) ensures c in Categories(r) {
        var i :| 0 <= i < |custom| && custom[i].0 == c;
        assert r[i].category == c;
      }
    }
    r
  }

  /**
   * Custom rows overlaid on a default table: every custom category first, in
   * caller order and with its list normalised, then every default whose name
   * is not a custom key, in default order.
   */
  function Overlay(custom: CustomRules, defaults: seq<Rule>): (r: seq<Rule>)
    ensures |r| >= |custom|
    ensures forall i :: 0 <= i < |custom| ==> r[i] == Rule(custom[i].0, NormalizeAll(custom[i].1))
    ensures r[|custom|..] == NormalizeRules(KeptDefaults(defaults, Keys(custom)))
    ensures DistinctKeys(custom) && DistinctCategories(defaults) ==> DistinctCategories(r)
    ensures Categories(r) == Keys(custom) + Categories(defaults)
  {
    var front := CustomRows(custom);
    var back := NormalizeRules(KeptDefaults(defaults, Keys(custom)));
    BackRows(custom, defaults);
    OverlayCategories(front, back, Keys(custom), Categories(defaults));
    if DistinctKeys(custom) && DistinctCategories(defaults) then
      KeptDistinct(defaults, Keys(custom));
      OverlayDistinct(front, back, Keys(custom));
      assert (front + back)[|custom|..] == back;
      front + back
    else
      assert (front + back)[|custom|..] == back;
      front + back
  }

  /** The default rows kept by an overlay avoid every custom name. */
  lemma BackRows(custom: CustomRules, defaults: seq<Rule>)
    ensures forall j :: 0 <= j < |NormalizeRules(KeptDefaults(defaults, Keys(custom)))| ==>
      NormalizeRules(KeptDefaults(defaults, Keys(custom)))[j].category !in Keys(custom) &&
      NormalizeRules(KeptDefaults(defaults, Keys(custom)))[j].category in Categories(defaults)
    ensures Categories(defaults) - Keys(custom) <= Categories(NormalizeRules(KeptDefaults(defaults, Keys(custom))))
  {
    var kept := KeptDefaults(defaults, Keys(custom));
    var back := NormalizeRules(kept);
    forall j | 0 <= j < |back|
      ensures back[j].category !in Keys(custom) && back[j].category in Categories(defaults)
    {
      assert kept[j] in kept;
      var k :| 0 <= k < |defaults| && defaults[k] == kept[j];
    }
    forall c | c in Categories(defaults) - Keys(custom) ensures c in Categories(back) {
      var k :| 0 <= k < |defaults| && defaults[k].category == c;
      assert defaults[k] in kept;
      var j :| 0 <= j < |kept| && kept[j] == defaults[k];
      assert back[j].category == c;
    }
  }

  lemma OverlayCategories(front: seq<Rule>, back: seq<Rule>, keys: set<string>, defaultNames: set<string>)
    requires Categories(front) == keys
    requires forall j :: 0 <= j < |back| ==> back[j].category in defaultNames
    requires defaultNames - keys <= Categories(back)
    ensures Categories(front + back) == keys + defaultNames
  {
    var r := front + back;
    forall c | c in keys + defaultNames ensures c in Categories(r) {
      if c in keys {
        var i :| 0 <= i < |front| && front[i].category == c;
        assert r[i].category == c;
      } else {
        assert c in Categories(back);
        var j :| 0 <= j < |back| && back[j].category == c;
        assert r[|front| + j].category == c;
      }
    }
    forall c | c in Categories(r) ensures c in keys + defaultNames {
      var j :| 0 <= j < |r| && r[j].category == c;
      if j >= |front| {
        assert back[j - |front|] == r[j];
      } else {
        assert front[j] == r[j];
      }
    }
  }

  lemma OverlayDistinct(front: seq<Rule>, back: seq<Rule>, keys: set<string>)
    requires DistinctCategories(front) && DistinctCategories(back)
    requires forall i :: 0 <= i < |front| ==> front[i].category in keys
    requires forall j :: 0 <= j < |back| ==> back[j].category !in keys
    ensures DistinctCategories(front + back)
  {
    var r := front + back;
    forall i, j | 0 <= i < j < |r| ensures r[i].category != r[j].category {
      if j < |front| {
        assert r[i] == front[i] && r[j] == front[j];
      } else if i < |front| {
        assert r[i] == front[i] && r[j] == back[j - |front|];
      } else {
        assert r[i] == back[i - |front|] && r[j] == back[j - |front|];
      }
    }
  }

  /**
   * The ordered rule table the organizer classifies with: the user's rules
   * overlaid on the built-in defaults. A custom name replaces a same-named
   * default outright, and category names never repeat.
   */
  function BuildRules(custom: CustomRules): (r: seq<Rule>)
    ensures |r| >= |custom|
    ensures forall i :: 0 <= i < |custom| ==> r[i] == Rule(custom[i].0, NormalizeAll(custom[i].1))
    ensures r[|custom|..] == NormalizeRules(KeptDefaults(DefaultRules, Keys(custom)))
    ensures DistinctKeys(custom) ==> DistinctCategories(r)
    ensures Categories(r) == Keys(custom) + Categories(DefaultRules)
  {
    DefaultsDistinct();
    Overlay(custom, DefaultRules)
  }

  lemma DefaultsDistinct()
    ensures DistinctCategories(DefaultRules)
  {
  }

  lemma {:induction false} KeptDistinct(defaults: seq<Rule>, keys: set<string>)
    requires DistinctCategories(defaults)
    ensures DistinctCategories(KeptDefaults(defaults, keys))
  {
    if defaults != [] {
      KeptDistinct(defaults[1..], keys);
      var rest := KeptDefaults(defaults[1..], keys);
      forall d | d in rest ensures d.category != defaults[0].category {
        var k :| 0 <= k < |defaults[1..]| && defaults[1..][k] == d;
        assert defaults[k + 1] == d;
      }
      if defaults[0].category !in keys {
        ConsDistinct(defaults[0], rest);
      }
    }
  }

  lemma ConsDistinct(x: Rule, rest: seq<Rule>)
    requires DistinctCategories(rest)
    requires forall d | d in rest :: d.category != x.category
    ensures DistinctCategories([x] + rest)
  {
    var r := [x] + rest;
    forall i, j | 0 <= i < j < |r| ensures r[i].category != r[j].category {
      if i == 0 {
        assert r[j] in rest;
      } else {
        assert r[i] == rest[i - 1] && r[j] == rest[j - 1];
      }
    }
  }

  /** Rule `i` is the first rule whose list holds `ext`. */
  predicate FirstHolder(ext: string, rules: seq<Rule>, i: int)
  {
    0 <= i < |rules| && ext in rules[i].exts && forall j :: 0 <= j < i ==> ext !in rules[j].exts
  }

  /** First-match classification over the ordered rule table. */
  function Resolve(ext: string, rules: seq<Rule>): (r: string)
    ensures r == Fallback || r in Categories(rules)
  {
    if rules == [] then Fallback
    else if ext in rules[0].exts then rules[0].category
    else
      var r := Resolve(ext, rules[1..]);
      assert r != Fallback ==> r in Categories(rules) by {
        if r != Fallback {
          var k :| 0 <= k < |rules[1..]| && rules[1..][k].category == r;
          assert rules[k + 1].category == r;
        }
      }
      r
  }

  /**
   * The answer is the category of the first rule whose list holds `ext`, and
   * the fallback exactly when no rule holds it.
   */
  lemma {:induction false} ResolveSpec(ext: string, rules: seq<Rule>)
    ensures forall i :: FirstHolder(ext, rules, i) ==> Resolve(ext, rules) == rules[i].category
    ensures (forall i :: 0 <= i < |rules| ==> ext !in rules[i].exts) ==> Resolve(ext, rules) == Fallback
  {
    if rules != [] && ext !in rules[0].exts {
      ResolveSpec(ext, rules[1..]);
      forall i | FirstHolder(ext, rules, i) ensures Resolve(ext, rules) == rules[i].category {
        assert i > 0;
        assert FirstHolder(ext, rules[1..], i - 1) by {
          forall j | 0 <= j < i - 1 ensures ext !in rules[1..][j].exts {
            assert rules[1..][j] == rules[j + 1];
          }
        }
      }
      if forall i :: 0 <= i < |rules| ==> ext !in rules[i].exts {
        forall i | 0 <= i < |rules[1..]| ensures ext !in rules[1..][i].exts {
          assert rules[1..][i] == rules[i + 1];
        }
      }
    }
  }

  /** Some rule holds `ext` exactly when a first such rule exists. */
  lemma FirstHolderExists(ext: string, rules: seq<Rule>, i: int)
    requires 0 <= i < |rules| && ext in rules[i].exts
    ensures exists k :: k <= i && FirstHolder(ext, rules, k)
  {
    if !FirstHolder(ext, rules, i) {
      var j :| 0 <= j < i && ext in rules[j].exts;
      FirstHolderExists(ext, rules, j);
    }
  }

  /**
   * A custom rule shadows every default: an extension listed (before
   * normalisation) by a custom category resolves to a custom category,
   * namely the first one that lists it.
   */
  lemma CustomShadowsDefaults(custom: CustomRules, i: nat, x: string)
    requires i < |custom| && x in custom[i].1
    ensures Resolve(NormalizeExt(x), BuildRules(custom)) in Keys(custom)
    ensures exists k :: 0 <= k <= i && Resolve(NormalizeExt(x), BuildRules(custom)) == custom[k].0
  {
    var ext := NormalizeExt(x);
    var rules := BuildRules(custom);
    var j :| 0 <= j < |custom[i].1| && custom[i].1[j] == x;
    assert ext in rules[i].exts by {
      assert rules[i].exts[j] == ext;
    }
    FirstHolderExists(ext, rules, i);
    var k :| k <= i && FirstHolder(ext, rules, k);
    ResolveSpec(ext, rules);
    assert Resolve(ext, rules) == custom[k].0;
  }

  /**
   * A custom entry named like a default replaces that default's list
   * entirely: the only row of that name carries the normalised custom list.
   */
  lemma OverrideReplaces(custom: CustomRules, i: nat)
    requires DistinctKeys(custom) && i < |custom|
    ensures forall k :: 0 <= k < |BuildRules(custom)| && BuildRules(custom)[k].category == custom[i].0 ==>
      BuildRules(custom)[k].exts == NormalizeAll(custom[i].1)
  {
    var r := BuildRules(custom);
    forall k | 0 <= k < |r| && r[k].category == custom[i].0
      ensures r[k].exts == NormalizeAll(custom[i].1)
    {
      assert r[i].category == custom[i].0;
      assert k == i;
    }
  }

  lemma {:induction false} KeptAll(defaults: seq<Rule>)
    ensures KeptDefaults(defaults, {}) == defaults
  {
    if defaults != [] {
      KeptAll(defaults[1..]);
      assert [defaults[0]] + defaults[1..] == defaults;
    }
  }

  /** Without custom rules the table is the normalised default table. */
  lemma NoCustomRules()
    ensures BuildRules([]) == NormalizeRules(DefaultRules)
  {
    assert Keys([]) == {};
    KeptAll(DefaultRules);
    assert BuildRules([])[0..] == BuildRules([]);
  }

  lemma DotJpg()
    ensures NormalizeExt(".jpg") == "jpg"
  {
    assert ".jpg"[1..] == "jpg";
    assert StripLeadingDots("jpg") == "jpg";
    assert StripLeadingDots(".jpg") == "jpg";
    assert Lower("jpg") == "jpg";
  }

  lemma JpgFirstListed(r: Rule)
    requires r.exts != [] && r.exts[0] == "jpg"
    ensures "jpg" in NormalizeRule(r).exts
  {
    NormalizeFixesNormalized("jpg");
    assert NormalizeRule(r).exts[0] == "jpg";
  }

  lemma ImagesListJpg()
    ensures "jpg" in BuildRules([])[0].exts
    ensures BuildRules([])[0].category == "Images"
  {
    NoCustomRules();
    assert DefaultRules[0] == Rule("Images", ["jpg", "jpeg", "png", "gif", "bmp", "svg", "webp", "heic"]);
    JpgFirstListed(DefaultRules[0]);
  }

  /** Without custom rules a ".jpg" file is an image. */
  lemma JpgIsImage()
    ensures Resolve(NormalizeExt(".jpg"), BuildRules([])) == "Images"
  {
    DotJpg();
    ImagesListJpg();
    var rules := BuildRules([]);
    assert rules != [] && "jpg" in rules[0].exts;
  }

}

=== FILE: scanner.dfy ===
/**
 * `deep_scan_and_organize` and the watcher's `on_created`: the drivers that
 * feed files to the organize step, swallow its failures, and optionally run
 * the reaper afterwards.
 */
module Scanner {

  import opened Opt
  import opened Counters
  import opened FsTree
  import opened Rules
  import opened Mover
  import opened Planner
  import opened Reaper

  /**
   * The skip test of the walk: a directory (given relative to the target)
   * whose first component names a category is left alone, unless the scan is
   * recursive. The target itself is never skipped.
   */
  predicate SkipDir(rel: Path, rules: seq<Rule>, recursive: bool)
  {
    |rel| > 0 && rel[0] != "" && rel[0] in Categories(rules) && !recursive
  }

  /**
   * The files of one directory, one organize step each, in listing order. A
   * step that raises is logged and skipped, so it never stops the rest.
   */
  function ProcessFiles(fs: Node, stats: Stats, root: Path, names: seq<string>, target: Path,
                        layout: Layout, rules: seq<Rule>, faults: Path -> Faults): (r: (Node, Stats))
    ensures Grows(stats, r.1)
    ensures r.1.foldersDeleted == stats.foldersDeleted
    ensures r.1.scanned <= stats.scanned + |names|
    ensures r.1.foldersCreated <= stats.foldersCreated + |names|
    ensures Balanced(stats) ==> Balanced(r.1)
    ensures Settled(stats, r.1)
    decreases |names|
  {
    if names == [] then (fs, stats)
    else
      var src := root + [names[0]];
      var o := Organize(fs, stats, src, target, layout, rules, faults(src));
      var r := ProcessFiles(o.fs, o.stats, root, names[1..], target, layout, rules, faults);
      GrowsTransitive(stats, o.stats, r.1);
      SettledTransitive(stats, o.stats, r.1);
      r
  }

  /** Processing a listing in two parts is processing it whole: nothing one file does stops the next. */
  lemma {:induction false} ProcessFilesSplit(fs: Node, stats: Stats, root: Path, a: seq<string>, b: seq<string>,
                                            target: Path, layout: Layout, rules: seq<Rule>, faults: Path -> Faults)
    ensures var m := ProcessFiles(fs, stats, root, a, target, layout, rules, faults);
      ProcessFiles(fs, stats, root, a + b, target, layout, rules, faults) ==
        ProcessFiles(m.0, m.1, root, b, target, layout, rules, faults)
    decreases |a|
  {
    if a != [] {
      assert (a + b)[0] == a[0];
      assert (a + b)[1..] == a[1..] + b;
      var src := root + [a[0]];
      var o := Organize(fs, stats, src, target, layout, rules, faults(src));
      ProcessFilesSplit(o.fs, o.stats, root, a[1..], b, target, layout, rules, faults);
    } else {
      assert a + b == b;
    }
  }

  /**
   * The walk over the directories `rels`, each relative to the target, in
   * visiting order. Each directory's files are listed when it is visited;
   * a skipped directory is passed over, and a non-recursive walk stops after
   * the first directory it does not skip.
   */
  function Walk(fs: Node, stats: Stats, rels: seq<Path>, target: Path, layout: Layout, rules: seq<Rule>,
                recursive: bool, faults: Path -> Faults): (r: (Node, Stats))
    ensures Grows(stats, r.1)
    ensures r.1.foldersDeleted == stats.foldersDeleted
    ensures Balanced(stats) ==> Balanced(r.1)
    ensures Settled(stats, r.1)
    decreases |rels|
  {
    if rels == [] then (fs, stats)
    else if SkipDir(rels[0], rules, recursive) then Walk(fs, stats, rels[1..], target, layout, rules, recursive, faults)
    else
      var root := target + rels[0];
      var m := ProcessFiles(fs, stats, root, FileNames(fs, root), target, layout, rules, faults);
      if !recursive then m
      else
        var r := Walk(m.0, m.1, rels[1..], target, layout, rules, recursive, faults);
        GrowsTransitive(stats, m.1, r.1);
        SettledTransitive(stats, m.1, r.1);
        r
  }

  /**
   * The deep scan of `target` with the organize mode `mode`. The walk visits
   * the target first and then the directories `later` (relative to it). A
   * missing target changes nothing; a target that is not a directory is not
   * walked; the reaper runs over the target only when `deleteEmpty` is set.
   */
  function DeepScan(fs: Node, stats: Stats, target: Path, mode: string, recursive: bool, deleteEmpty: bool,
                    custom: CustomRules, later: seq<Path>, faults: Path -> Faults, rmdirFails: Path -> bool): (r: (Node, Stats))
    ensures !Exists(fs, target) ==> r == (fs, stats)
    ensures Grows(stats, r.1)
    ensures Balanced(stats) ==> Balanced(r.1)
    ensures !deleteEmpty ==> r.1.foldersDeleted == stats.foldersDeleted
    ensures Settled(stats, r.1)
  {
    var rules := BuildRules(custom);
    if !Exists(fs, target) then (fs, stats)
    else
      var w := if IsDirAt(fs, target) then Walk(fs, stats, [[]] + later, target, LayoutOf(mode), rules, recursive, faults)
               else (fs, stats);
      var r := if deleteEmpty then ReapAt(w.0, w.1, target, rmdirFails) else w;
      GrowsTransitive(stats, w.1, r.1);
      SettledTransitive(stats, w.1, r.1);
      r
  }

  /**
   * A non-recursive scan organizes exactly the files directly inside the
   * target, listed when the walk starts, whatever lies deeper; then it
   * reaps when asked.
   */
  lemma NonRecursiveScansTopLevel(fs: Node, stats: Stats, target: Path, mode: string, deleteEmpty: bool,
                                  custom: CustomRules, later: seq<Path>, faults: Path -> Faults, rmdirFails: Path -> bool)
    requires IsDirAt(fs, target)
    ensures var m := ProcessFiles(fs, stats, target, FileNames(fs, target), target, LayoutOf(mode), BuildRules(custom), faults);
      DeepScan(fs, stats, target, mode, false, deleteEmpty, custom, later, faults, rmdirFails) ==
        (if deleteEmpty then ReapAt(m.0, m.1, target, rmdirFails) else m)
    ensures var r := DeepScan(fs, stats, target, mode, false, deleteEmpty, custom, later, faults, rmdirFails);
      r.1.scanned <= stats.scanned + |FileNames(fs, target)|
  {
    assert ([[]] + later)[0] == [];
    assert target + [] == target;
  }

  /** The files of every directory in `rels`, visited in order with no directory passed over. */
  function VisitAll(fs: Node, stats: Stats, rels: seq<Path>, target: Path, layout: Layout, rules: seq<Rule>,
                    faults: Path -> Faults): (Node, Stats)
    decreases |rels|
  {
    if rels == [] then (fs, stats)
    else
      var root := target + rels[0];
      var m := ProcessFiles(fs, stats, root, FileNames(fs, root), target, layout, rules, faults);
      VisitAll(m.0, m.1, rels[1..], target, layout, rules, faults)
  }

  /** A recursive walk passes over no directory: category folders are organized like any other. */
  lemma {:induction false} RecursiveVisitsAll(fs: Node, stats: Stats, rels: seq<Path>, target: Path, layout: Layout,
                                             rules: seq<Rule>, faults: Path -> Faults)
    ensures Walk(fs, stats, rels, target, layout, rules, true, faults) == VisitAll(fs, stats, rels, target, layout, rules, faults)
    decreases |rels|
  {
    if rels != [] {
      var root := target + rels[0];
      var m := ProcessFiles(fs, stats, root, FileNames(fs, root), target, layout, rules, faults);
      RecursiveVisitsAll(m.0, m.1, rels[1..], target, layout, rules, faults);
    }
  }

  /**
   * A recursive scan organizes the files of the target and then of every
   * later directory, none passed over, and then reaps the target when asked.
   */
  lemma RecursiveScanVisitsAll(fs: Node, stats: Stats, target: Path, mode: string, deleteEmpty: bool,
                               custom: CustomRules, later: seq<Path>, faults: Path -> Faults, rmdirFails: Path -> bool)
    requires IsDirAt(fs, target)
    ensures var w := VisitAll(fs, stats, [[]] + later, target, LayoutOf(mode), BuildRules(custom), faults);
      DeepScan(fs, stats, target, mode, true, deleteEmpty, custom, later, faults, rmdirFails) ==
        (if deleteEmpty then ReapAt(w.0, w.1, target, rmdirFails) else w)
  {
    RecursiveVisitsAll(fs, stats, [[]] + later, target, LayoutOf(mode), BuildRules(custom), faults);
  }

  /**
   * Whatever the directories visited after the target, the skip test never
   * holds for a directory whose files the deep scan organizes: a recursive
   * walk skips nothing, and a non-recursive one only organizes the target,
   * which is not skipped.
   */
  lemma SkipNeverTakesEffect(rel: Path, rules: seq<Rule>, recursive: bool)
    requires recursive || rel == []
    ensures !SkipDir(rel, rules, recursive)
  {
  }

  /** A file-system event delivered to the watcher. */
  datatype Event = Event(path: Path, isDirectory: bool)

  /**
   * The watcher's handler for a created entry: directories are ignored; a
   * file goes through one organize step, and when that step does not raise
   * and `deleteEmpty` is set, the reaper runs over the target. A raising step
   * is logged and skips the cleanup.
   */
  function OnCreated(fs: Node, stats: Stats, ev: Event, target: Path, mode: string, deleteEmpty: bool,
                     rules: seq<Rule>, f: Faults, rmdirFails: Path -> bool): (r: (Node, Stats))
    requires ev.path != []
    ensures ev.isDirectory ==> r == (fs, stats)
    ensures Grows(stats, r.1)
    ensures Settled(stats, r.1)
    ensures Balanced(stats) ==> Balanced(r.1)
    ensures r.1.scanned <= stats.scanned + 1
    ensures !deleteEmpty || CreatedStep(fs, stats, ev.path, target, mode, rules, f).dest.None? ==>
      r.1.foldersDeleted == stats.foldersDeleted
    ensures !ev.isDirectory ==>
      var o := CreatedStep(fs, stats, ev.path, target, mode, rules, f);
      r.1.filesMoved == o.stats.filesMoved && r.1.errors == o.stats.errors
    ensures !ev.isDirectory && deleteEmpty && CreatedStep(fs, stats, ev.path, target, mode, rules, f).dest.Some? ==>
      var o := CreatedStep(fs, stats, ev.path, target, mode, rules, f);
      r == ReapAt(o.fs, o.stats, target, rmdirFails)
    ensures !ev.isDirectory && (!deleteEmpty || CreatedStep(fs, stats, ev.path, target, mode, rules, f).dest.None?) ==>
      var o := CreatedStep(fs, stats, ev.path, target, mode, rules, f);
      r == (o.fs, o.stats)
  {
    if ev.isDirectory then (fs, stats)
    else
      var o := CreatedStep(fs, stats, ev.path, target, mode, rules, f);
      var r := AfterCreated(o, target, deleteEmpty, rmdirFails);
      GrowsTransitive(stats, o.stats, r.1);
      SettledTransitive(stats, o.stats, r.1);
      r
  }

  /** The organize step the handler takes for the created file `src`, dispatched on `mode`. */
  function CreatedStep(fs: Node, stats: Stats, src: Path, target: Path, mode: string, rules: seq<Rule>, f: Faults): (o: Outcome)
    requires src != []
    ensures Grows(stats, o.stats) && Settled(stats, o.stats)
    ensures o.stats.scanned <= stats.scanned + 1
    ensures o.stats.foldersDeleted == stats.foldersDeleted
    ensures o.dest.Some? ==> o.stats.filesMoved == stats.filesMoved + 1
  {
    Organize(fs, stats, src, target, LayoutOf(mode), rules, f)
  }

  /** The handler's cleanup: the reaper over the target, only after a step that did not raise and only when asked. */
  function AfterCreated(o: Outcome, target: Path, deleteEmpty: bool, rmdirFails: Path -> bool): (r: (Node, Stats))
    ensures r.1 == o.stats.(foldersDeleted := r.1.foldersDeleted)
    ensures Grows(o.stats, r.1) && Settled(o.stats, r.1)
    ensures !deleteEmpty || o.dest.None? ==> r == (o.fs, o.stats)
    ensures deleteEmpty && o.dest.Some? ==> r == ReapAt(o.fs, o.stats, target, rmdirFails)
  {
    if o.dest.Some? && deleteEmpty then ReapAt(o.fs, o.stats, target, rmdirFails) else (o.fs, o.stats)
  }

}

=== FILE: stats.dfy ===
/**
 * The run statistics of the organizer: one record with the five counters the
 * end-of-run summary reports, threaded through every operation that changes it.
 */
module Counters {

  datatype Stats = Stats(
    scanned: nat,
    foldersCreated: nat,
    filesMoved: nat,
    foldersDeleted: nat,
    errors: nat
  )

  /** No counter of `b` is smaller than the same counter of `a`. */
  predicate Grows(a: Stats, b: Stats)
  {
    && a.scanned <= b.scanned
    && a.foldersCreated <= b.foldersCreated
    && a.filesMoved <= b.filesMoved
    && a.foldersDeleted <= b.foldersDeleted
    && a.errors <= b.errors
  }

  /** Every scanned file ended in exactly one of a move or an error. */
  predicate Balanced(s: Stats)
  {
    s.filesMoved + s.errors == s.scanned
  }

  /**
   * Between `a` and `b`, every newly scanned file ended in exactly one of a
   * move or an error.
   */
  predicate Settled(a: Stats, b: Stats)
  {
    b.scanned - a.scanned == (b.filesMoved - a.filesMoved) + (b.errors - a.errors)
  }

  /** The fresh record a run starts from. */
  function MakeStats(): (s: Stats)
    ensures Balanced(s)
    ensures forall t: Stats :: Grows(s, t)
  {
    Stats(0, 0, 0, 0, 0)
  }

  lemma GrowsTransitive(a: Stats, b: Stats, c: Stats)
    requires Grows(a, b) && Grows(b, c)
    ensures Grows(a, c)
  {
  }

  /** Two stretches of a run that each settle every scanned file settle it together too. */
  lemma SettledTransitive(a: Stats, b: Stats, c: Stats)
    requires Settled(a, b) && Settled(b, c)
    ensures Settled(a, c)
    ensures Balanced(a) ==> Balanced(c)
  {
  }

}

=== FILE: text.dfy ===
/**
 * String helpers of the organizer: extension normalisation, the decimal
 * rendering of integers used in years and rename indices, and pathlib's
 * split of a file name into stem and suffix.
 */
module Text {

  /** ASCII lower-casing of one character; every other character is left as is. */
  function LowerChar(c: char): (r: char)
    ensures 'A' <= c <= 'Z' ==> r as int == c as int + 32
    ensures !('A' <= c <= 'Z') ==> r == c
    ensures !('A' <= r <= 'Z')
  {
    if 'A' <= c <= 'Z' then (c as int + 32) as char else c
  }

  function Lower(s: string): (r: string)
    ensures |r| == |s|
    ensures forall i :: 0 <= i < |s| ==> r[i] == LowerChar(s[i])
  {
    seq(|s|, i requires 0 <= i < |s| => LowerChar(s[i]))
  }

  /** True when every character of `s` is a dot. */
  predicate AllDots(s: string)
  {
    forall i :: 0 <= i < |s| ==> s[i] == '.'
  }

  /** Python's `s.lstrip(".")`: drops the longest run of leading dots. */
  function StripLeadingDots(s: string): (r: string)
    ensures |r| <= |s|
    ensures r == s[|s| - |r|..]
    ensures AllDots(s[..|s| - |r|])
    ensures r == [] || r[0] != '.'
  {
    if |s| > 0 && s[0] == '.' then
      var r := StripLeadingDots(s[1..]);
      assert s[1..][..|s| - 1 - |r|] == s[1..|s| - |r|];
      r
    else
      s
  }

  /**
   * The extension normalisation: every leading dot removed, the rest lower-cased.
   * The result is the lower-cased remainder after a maximal run of leading dots.
   */
  function NormalizeExt(p: string): (r: string)
    ensures exists k :: 0 <= k <= |p| && AllDots(p[..k]) && (k == |p| || p[k] != '.') && r == Lower(p[k..])
    ensures r == [] || r[0] != '.'
    ensures forall i :: 0 <= i < |r| ==> !('A' <= r[i] <= 'Z')
  {
    var s := StripLeadingDots(p);
    var k := |p| - |s|;
    assert k == |p| || p[k] == s[0];
    Lower(s)
  }

  /** A string that normalisation leaves as it is: no leading dot and no ASCII capital. */
  predicate Normalized(s: string)
  {
    (s == [] || s[0] != '.') && forall i :: 0 <= i < |s| ==> !('A' <= s[i] <= 'Z')
  }

  lemma NormalizeFixesNormalized(s: string)
    requires Normalized(s)
    ensures NormalizeExt(s) == s
  {
    assert StripLeadingDots(s) == s;
    assert Lower(s) == s;
  }

  /** Normalising twice is the same as normalising once. */
  lemma NormalizeIdempotent(p: string)
    ensures NormalizeExt(NormalizeExt(p)) == NormalizeExt(p)
  {
    NormalizeFixesNormalized(NormalizeExt(p));
  }

  /** The character of a decimal digit. */
  function DigitChar(d: nat): (c: char)
    requires d < 10
    ensures '0' <= c <= '9'
  {
    ('0' as int + d) as char
  }

  /** Python's `str(n)` for a non-negative integer: digits only, with no leading zero. */
  function Decimal(n: nat): (r: string)
    ensures |r| > 0
    ensures forall i :: 0 <= i < |r| ==> '0' <= r[i] <= '9'
    ensures r[0] == '0' ==> n == 0
  {
    if n < 10 then [DigitChar(n)] else Decimal(n / 10) + [DigitChar(n % 10)]
  }

  /** The value of a string of decimal digits. */
  function ParseDecimal(s: string): nat
  {
    if s == [] then 0
    else
      var c := s[|s| - 1];
      var d := if '0' <= c <= '9' then c as int - '0' as int else 0;
      ParseDecimal(s[..|s| - 1]) * 10 + d
  }

  /** Reading back the decimal rendering gives the number. */
  lemma {:induction false} DecimalRoundTrip(n: nat)
    ensures ParseDecimal(Decimal(n)) == n
  {
    var s := Decimal(n);
    if n < 10 {
      assert s[..0] == [];
    } else {
      assert s[..|s| - 1] == Decimal(n / 10);
      DecimalRoundTrip(n / 10);
    }
  }

  lemma DecimalInjective(m: nat, n: nat)
    requires Decimal(m) == Decimal(n)
    ensures m == n
  {
    DecimalRoundTrip(m);
    DecimalRoundTrip(n);
  }

  /** Python's `name.rfind(".")`: the index of the last dot, if any. */
  function LastDot(name: string): (r: int)
    ensures -1 <= r < |name|
    ensures r >= 0 ==> name[r] == '.'
    ensures forall i :: r < i < |name| ==> name[i] != '.'
  {
    if name == [] then -1
    else if name[|name| - 1] == '.' then |name| - 1
    else LastDot(name[..|name| - 1])
  }

  /** pathlib's rule: a suffix starts at the last dot unless that dot is the first or the last character. */
  predicate HasSuffix(name: string)
  {
    0 < LastDot(name) < |name| - 1
  }

  function Suffix(name: string): (r: string)
    ensures HasSuffix(name) ==> |r| >= 2 && r[0] == '.' && forall i :: 1 <= i < |r| ==> r[i] != '.'
    ensures !HasSuffix(name) ==> r == []
  {
    if HasSuffix(name) then name[LastDot(name)..] else []
  }

  function Stem(name: string): (r: string)
    ensures HasSuffix(name) ==> 0 < |r| < |name|
    ensures !HasSuffix(name) ==> r == name
  {
    if HasSuffix(name) then name[..LastDot(name)] else name
  }

  /** The stem and the suffix of a name put back together are the name. */
  lemma StemSuffixSplit(name: string)
    ensures Stem(name) + Suffix(name) == name
  {
  }

}
